=== FILE: README.md ===
# Payment, payout and account gating of the card-to-crypto backend

This project models, in Dafny, the server-side core of a card-to-crypto
payment backend. It covers five areas:

- **The card payment lifecycle against the gateway.**
  - Pre-authorisation (`preAuthorizePayment`).
  - Capture (`capturePayment`).
  - Back-office operations (`managePayment`).
  - The asynchronous gateway notification (`handleSetopayWebhook`).
- **The crypto payout** made once a payment is captured (`transferCrypto`).
  This includes its constant tables: supported networks, token decimals,
  token contracts and gas limits.
- **Identity verification**: `startKyc` and the vendor's review
  notification (`sumsubWebhook`).
- **Account gating**: `loginUser`, `confirmEmail`, `verifyEmail`,
  `twoFaEnable` and `twoFaVerify`.
- **The stored records**: `Payment`, `CryptoTransfer`, `UserKyc` and `User`.

Every handler is a pure function with the same shape. It takes:

- the tables it reads, as sequences in table order;
- the request;
- the replies of the outside services it calls.

It returns:

- the tables after its writes;
- the HTTP answer;
- the outgoing calls it issued, where one is of interest.

Some lookups are modelled directly on the source:

- `findOne` is "first row in table order that matches" (`Common.FirstIndex`).
- A JavaScript truthiness test on an optional field is `Present`.
- `a || b` on optional values is `OrElse`.

Amounts are never floats. `Decimals` reads an amount string as an exact
scaled integer and compares amounts exactly. Scaling to token units
follows `toWei` as web3 1.x defines it: a value with more fraction digits
than the unit has is refused. No web3 version is pinned by the sources;
web3 4.x truncates such digits instead. Refusing a negative amount is the
model's own choice. `toWei` 1.x accepts one, but the resulting transfer
then fails at encoding or signing and ends in the same failed row.

The modules follow the controllers:

| module | models |
|---|---|
| `Common` | options, truthiness, first-match lookup, ASCII lower-casing |
| `Decimals` | exact decimal parsing, formatting, comparison and unit scaling |
| `ResultCodes` | the `000` prefix test of the synchronous endpoints and the webhook's regular expression |
| `Records` | the four record types and their status enumerations |
| `Store` | lookups and single-column updates on the tables |
| `PreAuth`, `Capture`, `Manage` | the three synchronous gateway endpoints |
| `Payout` | `transferCrypto` and its constant tables |
| `PaymentWebhook` | `handleSetopayWebhook` |
| `Kyc` | `startKyc`, `sumsubWebhook` |
| `Accounts` | login, e-mail confirmation, two-factor setup |

Some observations that came out of stating the contracts:

- The webhook's success test is strictly narrower than the `000` prefix test
  the synchronous endpoints use. `ResultCodes.SyncSuccessIsBroader` shows
  this with `000.200.100`.
- The webhook's duplicate guard requires both the capture and the payout to
  be done. So a payment that was captured but whose payout has not succeeded
  is captured again on every later success notification
  (`PaymentWebhook.RecaptureWhilePayoutPending`). The payout itself is
  idempotent (`Payout.PayoutIdempotent`).
  If the gateway refuses that second capture, the record that was
  `success` is set to `failed_capture` (`PaymentWebhook.RecaptureRefusalDowngrades`).
- Capture finds its record by `referenceId` and then by `paymentId`.
  Back-office operations look only at the `paymentId` column, which a
  successful capture overwrites with the capture's id
  (`Manage.ReferenceIdNotConsulted`).
- The payout's float fallback for token decimals other than 6 and 18 can
  never be reached: the decimals table only holds 6 and 18, and the default
  is 18 (`Payout.ScalingByCurrency`).
- `verifyEmail` compares the token against every account that still holds
  one, in table order, and confirms the first match. `confirmEmail` compares
  the token as stored.

## Model

| member | source | states |
|---|---|---|
| PreAuth.PreAuthorize | controllers/paymentController.js:66-225 | The gateway is called exactly when user, amount, currency, brand and all five card fields are present, always with operation `PA`. A missing user answers 401 and any other missing field answers 400, both without a write. A failed gateway request answers 500 without a write. A reply appends exactly one `pending` row that carries the gateway id as both `referenceId` and `paymentId`, and relays the gateway's status. |
| PreAuth.ClientPaymentTypeIgnored | controllers/paymentController.js:124-146 | The operation the client asks for never changes the outcome: pre-authorisation is forced to `PA`. |
| PreAuth.PreAuthKeepsIdsUnique | controllers/paymentController.js:194-209 | Creating the pre-authorisation row under a fresh id keeps internal ids unique. |
| Capture.Capture | controllers/paymentController.js:231-536 | The capture call is issued exactly when every gate passes: all fields present, a positive amount, a compatible and still capturable local record if one is found, and no objection from the status reply if there is one. A refusal answers 400 and writes nothing. The status query is made before any capture. The gates run in source order, and each refusal names the first gate that failed. The request gates are a missing path id, then missing amount or currency, then a non-positive amount. After the local gates pass, the status-reply gates are a non-`000` code, then a payment type other than `PA`/`DB`, then an amount above the queried one. |
| Capture.ExcessAmountRejected | controllers/paymentController.js:276-289 | An amount above the recorded pre-authorised amount, compared exactly, is refused before the gateway is contacted. |
| Capture.CurrencyMismatchRejected | controllers/paymentController.js:291-299 | A currency other than the record's is refused before the gateway is contacted. |
| Capture.RecordGatesPrecedeStatusQuery | controllers/paymentController.js:276-333 | A failing record gate decides the answer, and the status query is then never made. The record gates run in the order amount, currency, already captured, failed pre-authorisation. |
| Capture.UnknownRecordStillCaptured | controllers/paymentController.js:326-384 | Neither a missing local record nor a failed status query blocks the capture of a well-formed request. |
| Capture.CaptureReplyApplied | controllers/paymentController.js:444-527 | Only the target record changes. It becomes `success` iff the code starts with `000` and `failed` otherwise. It takes the capture id if there is one, and the referenced id, else the path id, as its reference. A failure answers 400. |
| Capture.CaptureTransportFailure | controllers/paymentController.js:528-535 | A capture request that fails answers 500 and leaves the table unchanged. |
| ResultCodes.WebhookSuccessByPrefixes | controllers/paymentController.js:1037 | The webhook regular expression holds iff the code begins with one of `000.000.`, `000.100.1`, `000.3` or `000.6`. |
| ResultCodes.WebhookSuccessIsSyncSuccess | controllers/paymentController.js:1092 | Every code the webhook accepts also passes the synchronous `000` prefix test. |
| ResultCodes.SyncSuccessIsBroader | controllers/paymentController.js:444 | The converse fails: `000.200.100` passes the synchronous test but not the webhook test. |
| ResultCodes.WebhookExamples | controllers/paymentController.js:1037 | Worked classifications: success codes are accepted, and `800.100.100` and `700.400.100` are rejected. |
| Store.Resolve | controllers/paymentController.js:1019-1023 | The record found is one carrying the id. It is none only when no row carries the id in either column. When some row carries it as `referenceId`, the first such row is found. Otherwise the first row carrying it as `paymentId` is found. |
| Manage.ManagePayment | controllers/paymentController.js:542-681 | A missing path id, then missing fields, then an unknown operation are refused in that order. The gateway is called exactly when all fields are present and the lower-cased operation is one of the four table entries, with that operation's code. Otherwise it answers 400 with no write. Once the call is made, a failed request answers 500 and a reply's HTTP status (200 when absent) is relayed. A failed request or a non-`000` reply writes nothing. The table keeps its length, and a row changes only in its status. |
| Manage.SuccessfulOperationApplied | controllers/paymentController.js:633-661 | On a `000` reply, only the first row whose `paymentId` equals the reply's referenced id (else the path id) changes. It becomes refunded, chargeback or chargeback_reversed as the operation says. A rebill leaves the table as it was. |
| Manage.ReferenceIdNotConsulted | controllers/paymentController.js:641-643 | Records are looked up only by their `paymentId` column. When no row carries the search id there, nothing is written. |
| Manage.OperationCaseInsensitive | controllers/paymentController.js:572 | An operation name and its lower-cased form have the same effect. |
| Manage.RefundAndRebillExample | controllers/paymentController.js:565-577 | Worked example: a confirmed `Refund` marks a captured payment refunded, and a `rebill` leaves it `success`. |
| Payout.TokenDecimals | controllers/paymentController.js:793-799 | A token has 6 decimals iff it is USDT or USDC, and 18 decimals otherwise. |
| Payout.BuildTx | controllers/paymentController.js:872-921 | Native coins are sent from the admin wallet as `amount`·10^18 wei with gas 21000. Tokens need a contract for the network, are scaled by their own decimals, and use the estimated gas or 65000. A transaction is built iff the currency is native or has a contract on the network, and the amount scales exactly to the currency's units. Otherwise the reason is a missing contract or an invalid amount. |
| Payout.TransferCrypto | controllers/paymentController.js:839-990 | If the details and network checks pass and a `success` row exists for the payment, the routine reports that row's hash and changes nothing. Otherwise it appends exactly one row. The result is paid iff that row is a `success` row holding the broadcast hash. A failure row uses the admin wallet, or `admin` when that setting is empty, as sender and marks the payment `failed`. Only the payment's `transferStatus` changes. The first failing check decides the reason: missing details, unsupported network, missing admin config, unreachable RPC, then the build. Nothing is broadcast before the config and RPC checks pass. When every check passes, the built transaction is sent, and a returned hash makes the result paid with that hash. |
| Payout.EmptyAdminWalletRecordedAsAdmin | controllers/paymentController.js:980 | An empty admin wallet setting counts as missing: the failure row for the missing configuration names `admin` as its sender. |
| Payout.PayoutKeepsAtMostOnePaid | controllers/paymentController.js:853-857 | The transfer table never gets a second `success` row for the same payment. |
| Payout.PayoutIdempotent | controllers/paymentController.js:853-857 | Repeating a payout that succeeded changes nothing, broadcasts nothing and reports the earlier hash, whatever the chain answers now. |
| Payout.ScalingByCurrency | controllers/paymentController.js:905-921 | USDT and USDC token transfers are scaled by 10^6, and every other token and every native coin by 10^18. The float fallback is unreachable. |
| Payout.UsdtOnBscExample | controllers/paymentController.js:803-806 | Worked example: 12.5 USDT on BSC becomes 12 500 000 units sent to the BSC USDT contract, with the fallback gas limit. |
| Decimals.ToUnits | controllers/paymentController.js:912-915 | Scaling succeeds iff the amount is non-negative and has no more fraction digits than the unit. The result equals the amount times 10^decimals, exactly. |
| Decimals.ParseFormat | controllers/paymentController.js:253 | Reading an amount back from its canonical decimal text gives the same exact value, sign and scale included. |
| Decimals.StablecoinScaling | controllers/paymentController.js:914-915 | `12.5` at 6 decimals is 12 500 000 units. |
| Decimals.WholeCoinScaling | controllers/paymentController.js:912-913 | One whole coin, `1` at 18 decimals, is exactly 10^18 base units. |
| Decimals.ExcessPrecisionRefused | controllers/paymentController.js:912-915 | `0.1234567` cannot be expressed in 6-decimal units and is refused. |
| PaymentWebhook.HandleWebhook | controllers/paymentController.js:997-1137 | It answers 400 iff the id is missing. It captures iff the notification is actionable: the record is found, is not both captured and paid out, and the code matches the webhook pattern. A notification that is not actionable changes nothing. The capture uses the record's amount and currency. A payout is requested only after a successful capture, and with the record's wallet, currency, network and amount. After a successful capture, a payout is requested iff the captured row names wallet, currency and network. The tables are then exactly what that payout leaves behind the captured row. |
| PaymentWebhook.CaptureOutcome | controllers/paymentController.js:1085-1124 | The record becomes `success` with the capture id on a success code, `failed_capture` with the capture id otherwise, and `error_capture` when the request fails. A capture reply without an id keeps the stored `paymentId`, because the ORM drops undefined values. On success, with or without a payout, no other column of the record and no column of any other row changes except `transferStatus`. |
| PaymentWebhook.RecaptureWhilePayoutPending | controllers/paymentController.js:1032-1035 | A captured payment whose payout has not succeeded is captured again by the next success notification. |
| PaymentWebhook.RecaptureRefusalDowngrades | controllers/paymentController.js:1032-1118 | A captured payment whose payout has not succeeded is captured again on a success notification; if the gateway refuses that capture, the record goes from `success` to `failed_capture`. |
| PaymentWebhook.FullyProcessedIsFinal | controllers/paymentController.js:1032-1035 | For a record that carries the notification id as its pre-authorisation `referenceId`: once the notification has left the record captured and paid out, repeating it is acknowledged as already processed and changes nothing. A record found only through `paymentId` is not covered, because the capture overwrites that column. |
| Kyc.StartKyc | controllers/userKycController.js:15-65 | An unknown user answers 404 and writes and requests nothing. An existing row is resumed without asking the vendor for a new applicant. A first start marks the user `PENDING` at the basic level and creates an `INITIATED` row with the vendor's applicant id. A duplicate applicant id or a failed vendor call answers 500. The access token is requested for the row's applicant. |
| Kyc.StartKeepsApplicantsUnique | models/userKyc.js:32-36 | Starting verification keeps applicant ids unique, as the unique index demands. |
| Kyc.SecondStartResumes | controllers/userKycController.js:25-45 | Starting twice asks the vendor for an applicant only once: the second start resumes the first one's row. |
| Kyc.ApplyReview | controllers/userKycController.js:150-189 | The raw notification is kept. GREEN and RED complete the review with that answer, and RED records the reason. Any other answer leaves the review pending with that answer. |
| Kyc.SumsubWebhook | controllers/userKycController.js:96-197 | A bad signature answers 401, and everything else answers 200. Success is false iff the body is missing or unreadable. Only the first row with the applicant id changes, and only if it is not completed. The user's KYC status changes only on a GREEN or RED verdict for a row with a user. Conversely, a signed notification whose applicant's first row is open always applies the review to that row, whether or not the row names an existing user. A GREEN or RED verdict always updates the row's user. |
| Kyc.ReviewOutcome | controllers/userKycController.js:154-189 | GREEN approves the user, RED rejects the user, and any other answer leaves the user as it was. |
| Kyc.CompletedIsAbsorbing | controllers/userKycController.js:144-147 | No notification changes a completed review. |
| Kyc.CompletedStaysCompleted | controllers/userKycController.js:144-147 | However many notifications follow, a completed review keeps its answer, reason and raw notification. |
| Kyc.WebhookKeepsApplicantsUnique | models/userKyc.js:32-36 | The review notification never breaks the uniqueness of applicant ids. |
| Accounts.LoginUser | controllers/userController.js:200-259 | The login succeeds iff the account exists, its e-mail is confirmed, the password matches, and two-factor is off or the code checks. An unknown e-mail answers 401 and an unconfirmed account 403. A body without an e-mail answers 500, because the ORM refuses an undefined lookup value. So does a confirmed account with no password, because the hash comparison refuses an undefined password. A wrong password answers 401. With two-factor on, a missing code asks for one, a missing secret answers 500, and a code that does not check answers 401. Login never writes. |
| Accounts.UnconfirmedBeforePassword | controllers/userController.js:210-219 | An unconfirmed account answers 403 whatever password is given. |
| Accounts.NewUserCannotLogIn | models/user.js:34-37 | A freshly registered account, whose `emailVerify` is 0, cannot log in. |
| Accounts.ConfirmEmail | controllers/userController.js:261-286 | A missing token answers 400. An unknown token answers 400 and writes nothing. A known token confirms the first account holding it and clears its token. |
| Accounts.ConfirmTwiceFails | controllers/userController.js:270-281 | A token confirms once: the second attempt with the same token is refused. |
| Accounts.ConfirmedPassesVerifyGate | controllers/userController.js:210-213 | After confirmation the account is past the 403 gate of login. |
| Accounts.VerifyEmail | controllers/userController.js:288-324 | The account confirmed is the first, in table order, that holds a token the given one matches. If none matches, it answers 404 and writes nothing. |
| Accounts.TwoFaEnable | controllers/userController.js:120-159 | For a known user, the new secret is stored in its row and nothing else changes; `twoFaStatus` is left as it was. An unknown user answers 404 with no write. |
| Accounts.TwoFaVerify | controllers/userController.js:161-198 | Two-factor is turned on iff the user exists, has a secret, and the code checks against it. No other case writes. |
| Accounts.TwoFaSetupGuardsLogin | controllers/userController.js:220-230 | After enabling and verifying two-factor, a login with the right password and no code asks for the code instead of logging in. |

## Left out

- HTTPS plumbing to the gateway, the KYC vendor and the mailer. Each reply is an input: either the decoded fields the handler reads or a request failure. Signing the vendor's requests is not modelled.
- An unparseable gateway body on the pre-authorisation, status-query, capture and back-office requests is rejected by their request helpers, for example at `controllers/paymentController.js:174-182`. The model folds it into `RequestFailed` or `StatusUnavailable`.
- An unparseable body on the webhook's capture request (`controllers/paymentController.js:1083`) throws inside the response callback, outside any `catch`. That crash is not modelled.
- The blockchain RPC (gas price, nonce, signing, broadcast) is not modelled. The chain is an input: reachable, a gas estimate or none, and a transaction hash or a failure.
- `parseFloat` semantics (prefix parsing, exponents, `Infinity`) are not modelled. An amount is read as an optional sign, digits and an optional point with digits, and is compared exactly. Other strings count as not a number.
- Database failures: every write is assumed to succeed, so the handlers' generic 500 paths for DB errors are not modelled.
- Concurrency is not modelled. Each handler runs atomically against the tables, so the race between two deliveries of one notification is out of scope.
- bcrypt, TOTP and the HMAC signature check are uninterpreted inputs (predicates or a boolean).
- Generating the 2FA secret and QR code is not modelled. The secret is an input, and a QR failure is not modelled.
- `registerUser`, `getUsers`, `createUser`, `updateUser`, `deleteUser` and `getKycStatus` are not modelled. They are plain CRUD and read-only endpoints outside the payment and gating core.
- The commented-out handlers after the webhook in `paymentController.js` and the wallet controller are not modelled.
- Lookups of a name that coincides with a property JavaScript objects inherit (such as `constructor` or `__proto__`) are not modelled. This applies to currency and network names in the payout tables. The tables are modelled as finite maps.
- Manage.ManagePayment: operation names are looked up in the same kind of object literal. The source finds a truthy inherited value for names such as `constructor` or `__proto__` and calls the gateway, but the model refuses them with 400. Only the four listed operations are modelled as accepted.
- Columns the core never reads or writes (`isDelete`, `otp`, timestamps, role and block flags, e-mail logs) are left out of the records.
- `Common.ToLower` lower-cases ASCII letters only, where JavaScript `toLowerCase` applies full Unicode lower-casing. Operation names whose non-ASCII characters lower-case to ASCII are refused by the model but accepted by the source. For example, `CHARGEBAC` followed by U+212A KELVIN SIGN selects `chargeback` in the source.
- Kyc.StartKyc: the vendor's access-token level name and TTL are not modelled. Only whether a token came back is.
- `UserKyc.reviewStatus` is a string column. The model restricts it to the values the handlers write: `INITIATED`, `pending` and `completed`.

=== FILE: accounts.dfy ===
/** Account gating: login, the two e-mail confirmation endpoints and the
    two-factor set-up. Password hashing and TOTP checking are parameters
    (`bcrypt(plain, hash)`, `totp(secret, code)`); everything else is the
    handlers' own decision logic over the `Users` table. */
module Accounts {
  import opened Common
  import opened Records
  import opened Store

  /** `User.findOne({ where: { email } })`. */
  function FindByEmail(users: seq<User>, email: string): Option<nat> {
    FirstIndex(users, (u: User) => u.email == email)
  }

  // ---------------------------------------------------------------- login

  /** The JSON body; a field the body omits is `None`. */
  datatype Credentials = Credentials(email: Option<string>, password: Option<string>, twoFaCode: Option<string>)

  datatype LoginReply =
    | UnknownEmail
    | EmailNotVerified
    | WrongPassword
    | TwoFaRequired(userId: string)
    | TwoFaSecretMissing
    | InvalidTwoFaCode
    | LoggedIn(id: string, firstName: string, lastName: string, email: string, twoFaStatus: int)
    | ServerError
  {
    function Code(): nat {
      match this
      case UnknownEmail => 401
      case EmailNotVerified => 403
      case WrongPassword => 401
      case TwoFaRequired(_) => 200
      case TwoFaSecretMissing => 500
      case InvalidTwoFaCode => 401
      case LoggedIn(_, _, _, _, _) => 200
      case ServerError => 500
    }
  }

  /** The account the login looks up. An omitted e-mail selects nothing:
      the ORM refuses an undefined value in a `where` clause. */
  function Account(users: seq<User>, c: Credentials): Option<nat> {
    if c.email.Some? then FindByEmail(users, c.email.value) else None
  }

  /** The password given matches the stored hash. */
  predicate PasswordMatches(u: User, c: Credentials, bcrypt: (string, string) -> bool) {
    c.password.Some? && bcrypt(c.password.value, u.password)
  }

  /** The user may log in: the e-mail is confirmed, the password matches,
      and two-factor is off or the code checks against the secret. */
  predicate Admits(u: User, c: Credentials, bcrypt: (string, string) -> bool, totp: (string, string) -> bool) {
    && u.emailVerify == 1
    && PasswordMatches(u, c, bcrypt)
    && (u.twoFaStatus != 1 ||
        (Present(c.twoFaCode) && u.twoFaSecret.Some? && totp(u.twoFaSecret.value, c.twoFaCode.value)))
  }

  /** The checks run in a fixed order: account, confirmation, password,
      then the second factor. An omitted e-mail, or an omitted password
      for a confirmed account, makes the ORM or the hash comparison throw,
      which answers 500. Login never writes. */
  function LoginUser(users: seq<User>, c: Credentials,
                     bcrypt: (string, string) -> bool, totp: (string, string) -> bool): (r: LoginReply)
    ensures r == ServerError <==>
      || c.email.None?
      || (Account(users, c).Some? && users[Account(users, c).value].emailVerify == 1 && c.password.None?)
    ensures r == UnknownEmail <==> c.email.Some? && Account(users, c).None?
    ensures r.LoggedIn? <==>
      Account(users, c).Some? && Admits(users[Account(users, c).value], c, bcrypt, totp)
    ensures r.LoggedIn? ==>
      var u := users[Account(users, c).value];
      r == LoggedIn(u.id, u.firstName, u.lastName, u.email, u.twoFaStatus)
    ensures r == EmailNotVerified <==>
      Account(users, c).Some? && users[Account(users, c).value].emailVerify != 1
    ensures r.TwoFaRequired? <==>
      && Account(users, c).Some?
      && var u := users[Account(users, c).value];
      && u.emailVerify == 1 && PasswordMatches(u, c, bcrypt) && u.twoFaStatus == 1
      && !Present(c.twoFaCode)
    ensures r.TwoFaRequired? ==> r.userId == users[Account(users, c).value].id
    ensures r == WrongPassword <==>
      && Account(users, c).Some?
      && var u := users[Account(users, c).value];
      && u.emailVerify == 1 && c.password.Some? && !bcrypt(c.password.value, u.password)
    ensures r == TwoFaSecretMissing <==>
      && Account(users, c).Some?
      && var u := users[Account(users, c).value];
      && u.emailVerify == 1 && PasswordMatches(u, c, bcrypt) && u.twoFaStatus == 1
      && Present(c.twoFaCode) && u.twoFaSecret.None?
    ensures r == InvalidTwoFaCode <==>
      && Account(users, c).Some?
      && var u := users[Account(users, c).value];
      && u.emailVerify == 1 && PasswordMatches(u, c, bcrypt) && u.twoFaStatus == 1
      && Present(c.twoFaCode) && u.twoFaSecret.Some? && !totp(u.twoFaSecret.value, c.twoFaCode.value)
  {
    if c.email.None? then ServerError
    else
      match FindByEmail(users, c.email.value)
      case None => UnknownEmail
      case Some(i) =>
        var u := users[i];
        if u.emailVerify != 1 then EmailNotVerified
        else if c.password.None? then ServerError
        else if !bcrypt(c.password.value, u.password) then WrongPassword
        else if u.twoFaStatus == 1 && !Present(c.twoFaCode) then TwoFaRequired(u.id)
        else if u.twoFaStatus == 1 && u.twoFaSecret.None? then TwoFaSecretMissing
        else if u.twoFaStatus == 1 && !totp(u.twoFaSecret.value, c.twoFaCode.value) then InvalidTwoFaCode
        else LoggedIn(u.id, u.firstName, u.lastName, u.email, u.twoFaStatus)
  }

  /** The confirmation check comes before the password check: an
      unconfirmed account is answered 403 whatever password is given. */
  lemma UnconfirmedBeforePassword(users: seq<User>, c: Credentials, bcrypt: (string, string) -> bool,
                                  totp: (string, string) -> bool, password: Option<string>)
    requires Account(users, c).Some?
    requires users[Account(users, c).value].emailVerify != 1
    ensures LoginUser(users, c, bcrypt, totp) == LoginUser(users, c.(password := password), bcrypt, totp)
    ensures LoginUser(users, c, bcrypt, totp).Code() == 403
  {
  }

  /** A freshly registered account cannot log in before its e-mail is
      confirmed. */
  lemma NewUserCannotLogIn(users: seq<User>, c: Credentials, bcrypt: (string, string) -> bool,
                           totp: (string, string) -> bool,
                           id: string, firstName: string, lastName: string, hash: string, token: Option<string>)
    requires Account(users, c).Some?
    requires users[Account(users, c).value] == NewUser(id, firstName, lastName, c.email.value, hash, token)
    ensures LoginUser(users, c, bcrypt, totp) == EmailNotVerified
  {
  }

  // ------------------------------------------------------ e-mail confirmation

  /** The write both confirmation endpoints make. */
  function Confirmed(u: User): User {
    u.(emailVerify := 1, emailToken := None)
  }

  datatype ConfirmReply = TokenRequired | InvalidToken | EmailConfirmed
  {
    function Code(): nat {
      if this == EmailConfirmed then 200 else 400
    }
  }

  /** `confirmEmail`: the query token is compared as stored. */
  function ConfirmEmail(users: seq<User>, token: Option<string>): (r: (seq<User>, ConfirmReply))
    ensures r.1 == TokenRequired <==> !Present(token)
    ensures r.1 == EmailConfirmed <==>
      Present(token) && exists j :: 0 <= j < |users| && users[j].emailToken == token
    ensures r.1 != EmailConfirmed ==> r.0 == users
    ensures r.1 == EmailConfirmed ==>
      var i := FirstIndex(users, (u: User) => u.emailToken == token).value;
      r.0 == UpdateUser(users, users[i].id, Confirmed)
  {
    if !Present(token) then (users, TokenRequired)
    else
      match FirstIndex(users, (u: User) => u.emailToken == token)
      case None => (users, InvalidToken)
      case Some(i) => (UpdateUser(users, users[i].id, Confirmed), EmailConfirmed)
  }

  /** Confirmation clears the token, so a token held by one account
      confirms once: the second attempt is refused. */
  lemma {:induction false} ConfirmTwiceFails(users: seq<User>, token: Option<string>)
    requires Present(token)
    requires forall i, j :: 0 <= i < j < |users| && users[i].emailToken == token ==> users[j].emailToken != token
    requires ConfirmEmail(users, token).1 == EmailConfirmed
    ensures ConfirmEmail(ConfirmEmail(users, token).0, token).1 == InvalidToken
  {
    var i := FirstIndex(users, (u: User) => u.emailToken == token).value;
    var users' := ConfirmEmail(users, token).0;
    forall j | 0 <= j < |users'| ensures users'[j].emailToken != token {
      if users[j].id != users[i].id && j != i {
        if j < i {
          assert users[j].emailToken != token;
        } else {
          assert users[i].emailToken == token;
        }
      }
    }
  }

  /** After confirmation the account passes the login's 403 gate. */
  lemma ConfirmedPassesVerifyGate(users: seq<User>, token: Option<string>, c: Credentials,
                                  bcrypt: (string, string) -> bool, totp: (string, string) -> bool)
    requires UniqueUserIds(users)
    requires ConfirmEmail(users, token).1 == EmailConfirmed
    requires c.email.Some?
    requires FindByEmail(users, c.email.value) == FirstIndex(users, (u: User) => u.emailToken == token)
    ensures LoginUser(ConfirmEmail(users, token).0, c, bcrypt, totp) != EmailNotVerified
  {
    var i := FindByEmail(users, c.email.value).value;
    var users' := ConfirmEmail(users, token).0;
    KeysKept(users, users', c.email.value, users[i].id);
    assert users'[i].emailVerify == 1;
  }

  /** The account a hashed e-mail token belongs to: has a token and the
      token matches it. */
  predicate HoldsToken(u: User, token: string, bcrypt: (string, string) -> bool) {
    u.emailToken.Some? && bcrypt(token, u.emailToken.value)
  }

  datatype VerifyReply = VerifyTokenRequired | TokenNotFound | EmailVerified
  {
    function Code(): nat {
      match this
      case VerifyTokenRequired => 400
      case TokenNotFound => 404
      case EmailVerified => 200
    }
  }

  /** `verifyEmail`: the accounts that still hold a token are compared in
      table order and the first match is confirmed. */
  method VerifyEmail(users: seq<User>, token: Option<string>, bcrypt: (string, string) -> bool)
    returns (users': seq<User>, owner: Option<nat>, reply: VerifyReply)
    ensures !Present(token) ==> reply == VerifyTokenRequired && owner.None? && users' == users
    ensures owner.Some? ==>
      && Present(token) && owner.value < |users|
      && HoldsToken(users[owner.value], token.value, bcrypt)
      && (forall j :: 0 <= j < owner.value ==> !HoldsToken(users[j], token.value, bcrypt))
      && users' == UpdateUser(users, users[owner.value].id, Confirmed)
      && reply == EmailVerified
    ensures Present(token) && owner.None? ==>
      && (forall j :: 0 <= j < |users| ==> !HoldsToken(users[j], token.value, bcrypt))
      && users' == users && reply == TokenNotFound
  {
    if !Present(token) {
      return users, None, VerifyTokenRequired;
    }
    var i := 0;
    while i < |users|
      invariant 0 <= i <= |users|
      invariant forall j :: 0 <= j < i ==> !HoldsToken(users[j], token.value, bcrypt)
    {
      if users[i].emailToken.Some? && bcrypt(token.value, users[i].emailToken.value) {
        return UpdateUser(users, users[i].id, Confirmed), Some(i), EmailVerified;
      }
      i := i + 1;
    }
    return users, None, TokenNotFound;
  }

  // ------------------------------------------------------------------ 2FA

  datatype TwoFaReply = UserNotFound | NotInitiated | InvalidCode | TwoFaOk
  {
    function Code(): nat {
      match this
      case UserNotFound => 404
      case NotInitiated => 400
      case InvalidCode => 400
      case TwoFaOk => 200
    }
  }

  /** `twoFaEnable`: stores the freshly generated `secret` in the user's
      row and nothing else; `twoFaStatus` is left as it was, so a user who
      had two-factor on keeps it on under the new, unverified secret. */
  function TwoFaEnable(users: seq<User>, userId: Option<string>, secret: string): (r: (seq<User>, TwoFaReply))
    ensures r.1 == UserNotFound <==> userId.None? || FindUser(users, userId.value).None?
    ensures r.1 != UserNotFound ==> r.1 == TwoFaOk
    ensures r.1 == UserNotFound ==> r.0 == users
    ensures |r.0| == |users|
    ensures forall j :: 0 <= j < |users| ==>
      r.0[j] == users[j] || (r.0[j] == users[j].(twoFaSecret := Some(secret)) && Some(users[j].id) == userId)
    ensures r.1 == TwoFaOk ==>
      forall j :: 0 <= j < |users| && users[j].id == userId.value ==>
        r.0[j] == users[j].(twoFaSecret := Some(secret))
  {
    if userId.None? || FindUser(users, userId.value).None? then (users, UserNotFound)
    else (UpdateUser(users, userId.value, (u: User) => u.(twoFaSecret := Some(secret))), TwoFaOk)
  }

  /** `twoFaVerify`: a code that checks against the stored secret turns
      two-factor on; nothing else changes anything. */
  function TwoFaVerify(users: seq<User>, userId: Option<string>, code: Option<string>,
                       totp: (string, string) -> bool): (r: (seq<User>, TwoFaReply))
    ensures r.1 == UserNotFound <==> userId.None? || FindUser(users, userId.value).None?
    ensures r.1 == TwoFaOk <==>
      && userId.Some? && FindUser(users, userId.value).Some?
      && var u := users[FindUser(users, userId.value).value];
      && Present(u.twoFaSecret) && code.Some? && totp(u.twoFaSecret.value, code.value)
    ensures r.1 == NotInitiated <==>
      userId.Some? && FindUser(users, userId.value).Some? &&
      !Present(users[FindUser(users, userId.value).value].twoFaSecret)
    ensures r.1 != TwoFaOk ==> r.0 == users
    ensures r.1 == TwoFaOk ==> r.0 == UpdateUser(users, userId.value, (u: User) => u.(twoFaStatus := 1))
  {
    if userId.None? then (users, UserNotFound)
    else
      match FindUser(users, userId.value)
      case None => (users, UserNotFound)
      case Some(i) =>
        var u := users[i];
        if !Present(u.twoFaSecret) then (users, NotInitiated)
        else if code.Some? && totp(u.twoFaSecret.value, code.value) then
          (UpdateUser(users, userId.value, (v: User) => v.(twoFaStatus := 1)), TwoFaOk)
        else (users, InvalidCode)
  }

  /** Enabling and then verifying two-factor makes the next login with
      the right password ask for a code instead of logging in. */
  lemma {:induction false} TwoFaSetupGuardsLogin(users: seq<User>, userId: string, secret: string,
                                                 code: string, c: Credentials,
                                                 bcrypt: (string, string) -> bool, totp: (string, string) -> bool)
    requires UniqueUserIds(users)
    requires secret != "" && totp(secret, code)
    requires Account(users, c).Some? && users[Account(users, c).value].id == userId
    requires users[Account(users, c).value].emailVerify == 1
    requires PasswordMatches(users[Account(users, c).value], c, bcrypt)
    requires !Present(c.twoFaCode)
    ensures var enabled := TwoFaEnable(users, Some(userId), secret).0;
      var verified := TwoFaVerify(enabled, Some(userId), Some(code), totp).0;
      LoginUser(verified, c, bcrypt, totp) == TwoFaRequired(userId)
  {
    var i := Account(users, c).value;
    assert FindUser(users, userId) == Some(i) by {
      assert forall j :: 0 <= j < |users| && j != i ==> users[j].id != userId;
    }
    var enabled := TwoFaEnable(users, Some(userId), secret).0;
    KeysKept(users, enabled, c.email.value, userId);
    var verified := TwoFaVerify(enabled, Some(userId), Some(code), totp).0;
    assert enabled[i].twoFaSecret == Some(secret);
    KeysKept(enabled, verified, c.email.value, userId);
    assert verified[i] == users[i].(twoFaSecret := Some(secret), twoFaStatus := 1);
  }

  /** A write that keeps every row's id and e-mail finds the same rows. */
  lemma KeysKept(before: seq<User>, after: seq<User>, email: string, id: string)
    requires |before| == |after|
    requires forall j :: 0 <= j < |before| ==> after[j].id == before[j].id && after[j].email == before[j].email
    ensures FindByEmail(after, email) == FindByEmail(before, email)
    ensures FindUser(after, id) == FindUser(before, id)
  {
    var e, e' := FindByEmail(before, email), FindByEmail(after, email);
    if e.Some? && e'.Some? {
      assert e.value <= e'.value && e'.value <= e.value;
    }
    var f, f' := FindUser(before, id), FindUser(after, id);
    if f.Some? && f'.Some? {
      assert f.value <= f'.value && f'.value <= f.value;
    }
  }
}

=== FILE: capture.dfy ===
/** `capturePayment`: the synchronous capture endpoint. A fixed sequence
    of validation gates (request fields, the local pre-authorisation
    record, the gateway's status query) runs before the capture call; the
    capture reply then decides the record's new status and ids. Amounts
    are compared as exact decimals. */
module Capture {
  import opened Common
  import opened Decimals
  import opened ResultCodes
  import opened Records
  import opened Store

  /** Path parameter and JSON body. */
  datatype Request = Request(pathId: Option<string>, amount: Option<string>, currency: Option<string>)

  /** The status query's decoded reply, or a failure of the query (a
      transport or parse error, which the handler swallows). */
  datatype StatusReply =
    | StatusReplied(code: Option<string>, paymentType: Option<string>, amount: Option<string>)
    | StatusUnavailable

  /** The capture call's decoded reply, or a transport / parse failure. */
  datatype GatewayReply =
    | Replied(httpStatus: nat, code: Option<string>, id: Option<string>,
              referencedId: Option<string>, referenceId: Option<string>)
    | RequestFailed

  datatype Rejection =
    | MissingPaymentId
    | MissingFields
    | InvalidAmount
    | ExceedsPreAuthRecord
    | CurrencyMismatch
    | AlreadyCaptured
    | PreAuthFailed
    | NotCapturable
    | AlreadyProcessed
    | ExceedsQueriedAmount

  datatype Reply =
    | Refused(why: Rejection)
    | Captured(httpStatus: nat)
    | CaptureFailed(code: string, diagnostic: Diagnostic)
    | ServerError
  {
    function Code(): nat {
      match this
      case Refused(_) => 400
      case Captured(s) => if s == 0 then 200 else s
      case CaptureFailed(_, _) => 400
      case ServerError => 500
    }
  }

  /** The capture request sent to the gateway (operation code `CP`). */
  datatype CaptureCall = CaptureCall(id: string, amount: string, currency: string)

  datatype Outcome = Outcome(
    payments: seq<Payment>,
    reply: Reply,
    queried: bool,               // the status query was issued
    sent: Option<CaptureCall>)   // the capture call was issued

  /** Gates on the local pre-authorisation record, in source order. */
  function RecordGate(rec: Payment, amount: Option<Decimal>, currency: string): Option<Rejection> {
    if Exceeds(amount, Parse(rec.amount)) then Some(ExceedsPreAuthRecord)
    else if rec.currency != currency then Some(CurrencyMismatch)
    else if rec.status == Success then Some(AlreadyCaptured)
    else if rec.status == Failed then Some(PreAuthFailed)
    else None
  }

  /** Gates on the gateway's status reply, in source order. */
  function StatusGate(status: StatusReply, amount: Option<Decimal>): Option<Rejection> {
    match status
    case StatusUnavailable => None
    case StatusReplied(code, paymentType, authorised) =>
      if Present(code) && !SyncSuccess(code.value) then Some(NotCapturable)
      else if Present(paymentType) && paymentType.value != "PA" && paymentType.value != "DB" then
        Some(AlreadyProcessed)
      else if Present(authorised) && Exceeds(amount, Parse(authorised.value)) then
        Some(ExceedsQueriedAmount)
      else None
  }

  /** The record the capture reply is written to: by the path id, and
      failing that by the reply's `referencedId || referenceId`. */
  function TargetRecord(payments: seq<Payment>, pathId: string, reply: GatewayReply): Option<nat>
    requires reply.Replied?
  {
    match Resolve(payments, pathId)
    case Some(i) => Some(i)
    case None =>
      var refd := OrElse(reply.referencedId, reply.referenceId);
      if Present(refd) then Resolve(payments, refd.value) else None
  }

  /** The record after the capture reply: success iff the code starts
      with 000 (otherwise `failed`), the capture's id if it has one, and
      the referenced id or the path id. */
  function ApplyCapture(rec: Payment, pathId: string, reply: GatewayReply): Payment
    requires reply.Replied?
  {
    var refd := OrElse(reply.referencedId, reply.referenceId);
    rec.(paymentId := if Present(reply.id) then reply.id else rec.paymentId,
         referenceId := if Present(refd) then refd else Some(pathId),
         status := if SyncSuccess(reply.code.GetOr("")) then Success else Failed)
  }

  /** The request gates pass: path id, amount and currency are given and
      the amount is positive. */
  predicate RequestGatesPass(req: Request) {
    Present(req.pathId) && Present(req.amount) && Present(req.currency) && IsPositive(Parse(req.amount.value))
  }

  /** The request gates pass and the resolved record, if there is one,
      raises no objection. */
  predicate LocalGatesPass(payments: seq<Payment>, req: Request)
    requires RequestGatesPass(req)
  {
    var found := Resolve(payments, req.pathId.value);
    found.Some? ==> RecordGate(payments[found.value], Parse(req.amount.value), req.currency.value).None?
  }

  /** Every gate, stated as one condition: the request is complete, the
      amount positive, the resolved record (if any) compatible and still
      capturable, and the status reply (if any) raises no objection. */
  predicate Capturable(payments: seq<Payment>, req: Request, status: StatusReply) {
    && Present(req.pathId) && Present(req.amount) && Present(req.currency)
    && var amount := Parse(req.amount.value);
    && IsPositive(amount)
    && (var found := Resolve(payments, req.pathId.value);
        found.Some? ==>
          var rec := payments[found.value];
          && !Exceeds(amount, Parse(rec.amount))
          && rec.currency == req.currency.value
          && rec.status != Success
          && rec.status != Failed)
    && (status.StatusReplied? ==>
          && (Present(status.code) ==> SyncSuccess(status.code.value))
          && (Present(status.paymentType) ==> status.paymentType.value in {"PA", "DB"})
          && (Present(status.amount) ==> !Exceeds(amount, Parse(status.amount.value))))
  }

  /** The capture call is issued exactly when every gate passes; a
      rejection answers 400, issues nothing and leaves the table as it
      was; the status query is issued only once the record gates passed. */
  function Capture(payments: seq<Payment>, req: Request, status: StatusReply, gateway: GatewayReply): (r: Outcome)
    ensures r.sent.Some? <==> Capturable(payments, req, status)
    ensures r.sent.Some? ==> r.sent.value == CaptureCall(req.pathId.value, req.amount.value, req.currency.value)
    ensures r.sent.None? <==> r.reply.Refused?
    ensures r.reply.Refused? ==> r.payments == payments && r.reply.Code() == 400
    ensures r.sent.Some? ==> r.queried
    // The request gates, in source order.
    ensures !Present(req.pathId) ==> r.reply == Refused(MissingPaymentId) && !r.queried
    ensures Present(req.pathId) && (!Present(req.amount) || !Present(req.currency)) ==>
      r.reply == Refused(MissingFields) && !r.queried
    ensures (Present(req.pathId) && Present(req.amount) && Present(req.currency) &&
             !IsPositive(Parse(req.amount.value))) ==>
      r.reply == Refused(InvalidAmount) && !r.queried
    // The status-query gates, in source order, once the local gates passed.
    ensures RequestGatesPass(req) && LocalGatesPass(payments, req) && status.StatusReplied? ==>
      && r.queried
      && var amount := Parse(req.amount.value);
      && (Present(status.code) && !SyncSuccess(status.code.value) ==> r.reply == Refused(NotCapturable))
      && ((Present(status.code) ==> SyncSuccess(status.code.value)) &&
          Present(status.paymentType) && status.paymentType.value !in {"PA", "DB"} ==>
            r.reply == Refused(AlreadyProcessed))
      && ((Present(status.code) ==> SyncSuccess(status.code.value)) &&
          (Present(status.paymentType) ==> status.paymentType.value in {"PA", "DB"}) &&
          Present(status.amount) && Exceeds(amount, Parse(status.amount.value)) ==>
            r.reply == Refused(ExceedsQueriedAmount))
  {
    if !Present(req.pathId) then Outcome(payments, Refused(MissingPaymentId), false, None)
    else if !Present(req.amount) || !Present(req.currency) then
      Outcome(payments, Refused(MissingFields), false, None)
    else
      var id := req.pathId.value;
      var amount := Parse(req.amount.value);
      if !IsPositive(amount) then Outcome(payments, Refused(InvalidAmount), false, None)
      else
        var recordCheck :=
          match Resolve(payments, id)
          case None => None
          case Some(i) => RecordGate(payments[i], amount, req.currency.value);
        if recordCheck.Some? then Outcome(payments, Refused(recordCheck.value), false, None)
        else
          var statusCheck := StatusGate(status, amount);
          if statusCheck.Some? then Outcome(payments, Refused(statusCheck.value), true, None)
          else
            var call := CaptureCall(id, req.amount.value, req.currency.value);
            match gateway
            case RequestFailed => Outcome(payments, ServerError, true, Some(call))
            case Replied(httpStatus, code, _, _, _) =>
              var resultCode := code.GetOr("");
              var payments' :=
                match TargetRecord(payments, id, gateway)
                case None => payments
                case Some(i) => SetAt(payments, i, ApplyCapture(payments[i], id, gateway));
              var reply :=
                if SyncSuccess(resultCode) then Captured(httpStatus)
                else CaptureFailed(resultCode, CaptureDiagnostic(resultCode));
              Outcome(payments', reply, true, Some(call))
  }

  /** A request for more than the recorded pre-authorised amount is
      rejected before the gateway is contacted at all. */
  lemma ExcessAmountRejected(payments: seq<Payment>, req: Request, status: StatusReply, gateway: GatewayReply)
    requires Present(req.pathId) && Present(req.amount) && Present(req.currency)
    requires IsPositive(Parse(req.amount.value))
    requires var i := Resolve(payments, req.pathId.value);
      i.Some? && Exceeds(Parse(req.amount.value), Parse(payments[i.value].amount))
    ensures var r := Capture(payments, req, status, gateway);
      r.reply == Refused(ExceedsPreAuthRecord) && !r.queried && r.sent.None? && r.payments == payments
  {
  }

  /** A currency other than the pre-authorisation's is rejected before the
      gateway is contacted, unless the amount check fired first. */
  lemma CurrencyMismatchRejected(payments: seq<Payment>, req: Request, status: StatusReply, gateway: GatewayReply)
    requires Present(req.pathId) && Present(req.amount) && Present(req.currency)
    requires IsPositive(Parse(req.amount.value))
    requires var i := Resolve(payments, req.pathId.value);
      && i.Some?
      && !Exceeds(Parse(req.amount.value), Parse(payments[i.value].amount))
      && payments[i.value].currency != req.currency.value
    ensures var r := Capture(payments, req, status, gateway);
      r.reply == Refused(CurrencyMismatch) && !r.queried && r.sent.None? && r.payments == payments
  {
  }

  /** Neither a missing local record nor a failed status query blocks the
      capture of a well-formed request. */
  lemma UnknownRecordStillCaptured(payments: seq<Payment>, req: Request, gateway: GatewayReply)
    requires Present(req.pathId) && Present(req.amount) && Present(req.currency)
    requires IsPositive(Parse(req.amount.value))
    requires Resolve(payments, req.pathId.value).None?
    ensures Capture(payments, req, StatusUnavailable, gateway).sent.Some?
  {
  }

  /** Outcome of a capture that reached the gateway and got a reply: the
      target record alone changes; it becomes `success` exactly when the
      code starts with 000 and `failed` otherwise (never
      `failed_capture`); a failure answers 400. */
  lemma CaptureReplyApplied(payments: seq<Payment>, req: Request, status: StatusReply, gateway: GatewayReply)
    requires Capturable(payments, req, status) && gateway.Replied?
    ensures var r := Capture(payments, req, status, gateway);
      var ok := SyncSuccess(gateway.code.GetOr(""));
      && |r.payments| == |payments|
      && (ok <==> r.reply.Captured?)
      && (!ok ==> r.reply.Code() == 400)
      && match TargetRecord(payments, req.pathId.value, gateway)
         case None => r.payments == payments
         case Some(i) =>
           && (forall j :: 0 <= j < |payments| && j != i ==> r.payments[j] == payments[j])
           && r.payments[i].status == (if ok then Success else Failed)
           && (Present(gateway.id) ==> r.payments[i].paymentId == gateway.id)
           && (!Present(gateway.id) ==> r.payments[i].paymentId == payments[i].paymentId)
           && r.payments[i].referenceId ==
                (if Present(gateway.referencedId) then gateway.referencedId
                 else if Present(gateway.referenceId) then gateway.referenceId
                 else req.pathId)
           && r.payments[i] == payments[i].(status := r.payments[i].status,
                                            paymentId := r.payments[i].paymentId,
                                            referenceId := r.payments[i].referenceId)
  {
  }

  /** A failed capture request leaves the table untouched and answers 500. */
  lemma CaptureTransportFailure(payments: seq<Payment>, req: Request, status: StatusReply)
    requires Capturable(payments, req, status)
    ensures var r := Capture(payments, req, status, RequestFailed);
      r.payments == payments && r.reply.Code() == 500
  {
  }

  /** The gates fire in source order: an earlier failing gate decides the
      answer whatever the later ones would say. Shown for every
      record gate against the status query: the reason is the first of
      amount, currency, already captured and failed pre-authorisation. */
  lemma RecordGatesPrecedeStatusQuery(payments: seq<Payment>, req: Request, status: StatusReply, gateway: GatewayReply)
    requires Present(req.pathId) && Present(req.amount) && Present(req.currency)
    requires IsPositive(Parse(req.amount.value))
    requires var i := Resolve(payments, req.pathId.value);
      i.Some? && RecordGate(payments[i.value], Parse(req.amount.value), req.currency.value).Some?
    ensures var r := Capture(payments, req, status, gateway);
      && !r.queried
      && r.reply == Refused(RecordGate(payments[Resolve(payments, req.pathId.value).value],
                                        Parse(req.amount.value), req.currency.value).value)
    ensures var rec := payments[Resolve(payments, req.pathId.value).value];
      var amount := Parse(req.amount.value);
      var r := Capture(payments, req, status, gateway);
      && (!Exceeds(amount, Parse(rec.amount)) && rec.currency == req.currency.value && rec.status == Success ==>
            r.reply == Refused(AlreadyCaptured))
      && (!Exceeds(amount, Parse(rec.amount)) && rec.currency == req.currency.value && rec.status == Failed ==>
            r.reply == Refused(PreAuthFailed))
  {
  }
}

=== FILE: common.dfy ===
/** Shared vocabulary of the model: optional values (SQL NULL / JSON absent),
    JavaScript truthiness of strings, prefix tests, ASCII lower-casing and
    "first row that matches" lookups over an ordered table. */
module Common {

  /** A nullable column or an absent JSON field. */
  datatype Option<+T> = None | Some(value: T) {
    function GetOr(default: T): T {
      match this
      case Some(v) => v
      case None => default
    }
  }

  /** `x` is truthy in JavaScript: present and not the empty string. */
  predicate Present(x: Option<string>) {
    x.Some? && x.value != ""
  }

  /** JavaScript `a || b` on two optional strings. */
  function OrElse(a: Option<string>, b: Option<string>): (r: Option<string>)
    ensures Present(a) ==> r == a
    ensures !Present(a) ==> r == b
  {
    if Present(a) then a else b
  }

  /** JavaScript `x || null`: an empty string is stored as NULL. */
  function OrNull(x: Option<string>): (r: Option<string>)
    ensures r.Some? <==> Present(x)
    ensures r.Some? ==> r == x
  {
    if Present(x) then x else None
  }

  /** `s.startsWith(p)`. */
  predicate StartsWith(s: string, p: string) {
    |p| <= |s| && s[..|p|] == p
  }

  /** `String.prototype.toLowerCase` restricted to ASCII letters. */
  function LowerChar(c: char): char {
    if 'A' <= c <= 'Z' then (c as int + 32) as char else c
  }

  function ToLower(s: string): (r: string)
    ensures |r| == |s|
    ensures forall i :: 0 <= i < |s| ==> r[i] == LowerChar(s[i])
  {
    seq(|s|, i requires 0 <= i < |s| => LowerChar(s[i]))
  }

  lemma ToLowerIdempotent(s: string)
    ensures ToLower(ToLower(s)) == ToLower(s)
  {
  }

  /** Index of the first element satisfying `p`: what `Model.findOne`
      returns when rows are read in table order. */
  function FirstIndex<T>(s: seq<T>, p: T -> bool): (r: Option<nat>)
    ensures r.Some? ==> r.value < |s| && p(s[r.value])
    ensures r.Some? ==> forall j :: 0 <= j < r.value ==> !p(s[j])
    ensures r.None? <==> forall j :: 0 <= j < |s| ==> !p(s[j])
  {
    if |s| == 0 then None
    else if p(s[0]) then Some(0)
    else
      match FirstIndex(s[1..], p)
      case None => None
      case Some(k) => Some(k + 1)
  }

  /** Replace every element satisfying `p` by `f` of it: a bulk
      `Model.update(values, { where })`. */
  function UpdateWhere<T>(s: seq<T>, p: T -> bool, f: T -> T): (r: seq<T>)
    ensures |r| == |s|
    ensures forall i :: 0 <= i < |s| ==> r[i] == (if p(s[i]) then f(s[i]) else s[i])
  {
    seq(|s|, i requires 0 <= i < |s| => if p(s[i]) then f(s[i]) else s[i])
  }
}

=== FILE: decimals.dfy ===
/** Exact decimal amounts. The service keeps every amount as a decimal
    string; it compares them after `parseFloat` and scales payout amounts to
    on-chain integer units. Here both are done exactly: a string in plain
    decimal notation parses to `digits / 10^scale`. */
module Decimals {
  import opened Common

  /** The number `digits / 10^scale`; `scale` is the count of digits that
      were written after the decimal point. */
  datatype Decimal = Decimal(digits: int, scale: nat)

  function Pow10(n: nat): (r: nat)
    ensures r >= 1
  {
    if n == 0 then 1 else 10 * Pow10(n - 1)
  }

  lemma {:induction false} Pow10Add(a: nat, b: nat)
    ensures Pow10(a + b) == Pow10(a) * Pow10(b)
  {
    if a > 0 {
      Pow10Add(a - 1, b);
      assert Pow10(a + b) == 10 * Pow10(a - 1 + b);
    }
  }

  predicate IsDigit(c: char) {
    '0' <= c <= '9'
  }

  predicate AllDigits(s: string) {
    forall i :: 0 <= i < |s| ==> IsDigit(s[i])
  }

  function DigitValue(c: char): (r: nat)
    requires IsDigit(c)
    ensures r < 10
  {
    c as int - '0' as int
  }

  function DigitChar(d: nat): (c: char)
    requires d < 10
    ensures IsDigit(c) && DigitValue(c) == d
  {
    ('0' as int + d) as char
  }

  /** The value of a string of decimal digits, most significant first. */
  function DigitsValue(s: string): (r: nat)
    requires AllDigits(s)
    ensures r < Pow10(|s|)
  {
    if |s| == 0 then 0
    else DigitsValue(s[..|s| - 1]) * 10 + DigitValue(s[|s| - 1])
  }

  lemma {:induction false} DigitsValueAppend(a: string, b: string)
    requires AllDigits(a) && AllDigits(b)
    ensures AllDigits(a + b)
    ensures DigitsValue(a + b) == DigitsValue(a) * Pow10(|b|) + DigitsValue(b)
  {
    assert AllDigits(a + b) by {
      forall i | 0 <= i < |a + b| ensures IsDigit((a + b)[i]) {
        if i < |a| { assert (a + b)[i] == a[i]; } else { assert (a + b)[i] == b[i - |a|]; }
      }
    }
    if |b| > 0 {
      var b' := b[..|b| - 1];
      assert (a + b)[..|a + b| - 1] == a + b';
      assert (a + b)[|a + b| - 1] == b[|b| - 1];
      DigitsValueAppend(a, b');
      assert Pow10(|b|) == 10 * Pow10(|b'|);
      assert DigitsValue(a + b) == DigitsValue(a + b') * 10 + DigitValue(b[|b| - 1]);
      assert DigitsValue(b) == DigitsValue(b') * 10 + DigitValue(b[|b| - 1]);
      ShiftDigit(DigitsValue(a), Pow10(|b'|), DigitsValue(b'), DigitValue(b[|b| - 1]));
    } else {
      assert a + b == a;
    }
  }

  lemma ShiftDigit(x: int, p: int, y: int, d: int)
    ensures (x * p + y) * 10 + d == x * (10 * p) + (y * 10 + d)
  {
  }

  /** Leading zeros do not change a digit string's value. */
  lemma {:induction false} LeadingZeros(k: nat, s: string)
    requires AllDigits(s)
    ensures AllDigits(Zeros(k) + s) && DigitsValue(Zeros(k) + s) == DigitsValue(s)
  {
    DigitsValueAppend(Zeros(k), s);
    ZerosValue(k);
  }

  function Zeros(k: nat): (r: string)
    ensures |r| == k && AllDigits(r)
  {
    seq(k, _ => '0')
  }

  lemma {:induction false} ZerosValue(k: nat)
    ensures DigitsValue(Zeros(k)) == 0
  {
    if k > 0 {
      assert Zeros(k)[..k - 1] == Zeros(k - 1);
      ZerosValue(k - 1);
    }
  }

  /** Shortest decimal digit string of `n`. */
  function NatToDigits(n: nat): (r: string)
    ensures |r| > 0 && AllDigits(r)
    ensures '.' !in r && '-' !in r
  {
    if n < 10 then [DigitChar(n)] else NatToDigits(n / 10) + [DigitChar(n % 10)]
  }

  lemma {:induction false} NatToDigitsValue(n: nat)
    ensures DigitsValue(NatToDigits(n)) == n
  {
    if n >= 10 {
      var s := NatToDigits(n);
      assert s[..|s| - 1] == NatToDigits(n / 10);
      NatToDigitsValue(n / 10);
    }
  }

  /** Position of the first `.` in `s`. */
  function DotIndex(s: string): (r: Option<nat>)
    ensures r.Some? ==> r.value < |s| && s[r.value] == '.' && '.' !in s[..r.value]
    ensures r.None? ==> '.' !in s
  {
    if |s| == 0 then None
    else if s[0] == '.' then Some(0)
    else
      match DotIndex(s[1..])
      case None => None
      case Some(k) =>
        assert s[..k + 1] == [s[0]] + s[1..][..k];
        Some(k + 1)
  }

  function Signed(negative: bool, n: nat): int {
    if negative then -(n as int) else n
  }

  /** Reads unsigned decimal notation: integer digits and an optional `.`
      followed by fraction digits, at least one digit in all. Yields the
      digits as one integer and the count of fraction digits. */
  function ParseUnsigned(body: string): Option<(nat, nat)> {
    match DotIndex(body)
    case None =>
      if |body| > 0 && AllDigits(body) then Some((DigitsValue(body), 0)) else None
    case Some(k) =>
      var whole := body[..k];
      var fraction := body[k + 1..];
      if |whole| + |fraction| > 0 && AllDigits(whole) && AllDigits(fraction) then
        Some((DigitsValue(whole + fraction), |fraction|))
      else None
  }

  /** Reads an amount written as an optional `-` followed by unsigned
      decimal notation. Anything else is not a number. */
  function Parse(s: string): Option<Decimal> {
    var negative := |s| > 0 && s[0] == '-';
    var body := if negative then s[1..] else s;
    match ParseUnsigned(body)
    case None => None
    case Some((n, scale)) => Some(Decimal(Signed(negative, n), scale))
  }

  /** The `width` lowest digits of `m`, zero-padded on the left. */
  function Padded(m: nat, width: nat): (r: string)
    requires width > 0 && m < Pow10(width)
    ensures |r| == width && AllDigits(r) && '.' !in r
    ensures DigitsValue(r) == m
  {
    var digits := NatToDigits(m);
    DigitsFit(m, width);
    NatToDigitsValue(m);
    LeadingZeros(width - |digits|, digits);
    Zeros(width - |digits|) + digits
  }

  lemma DigitsFit(m: nat, width: nat)
    requires width > 0 && m < Pow10(width)
    ensures |NatToDigits(m)| <= width
  {
    var s := NatToDigits(m);
    LeadingDigitBound(m);
    if m > 0 {
      Pow10Below(|s| - 1, width);
    }
  }

  lemma Pow10Below(a: nat, b: nat)
    ensures Pow10(a) < Pow10(b) ==> a < b
  {
    if b <= a {
      Pow10Monotone(b, a);
    }
  }

  lemma {:induction false} LeadingDigitBound(n: nat)
    ensures n == 0 || n >= Pow10(|NatToDigits(n)| - 1)
  {
    if n >= 10 {
      LeadingDigitBound(n / 10);
      var k := |NatToDigits(n / 10)|;
      assert NatToDigits(n) == NatToDigits(n / 10) + [DigitChar(n % 10)];
      assert |NatToDigits(n)| == k + 1;
      assert Pow10(k) == 10 * Pow10(k - 1);
      assert 10 * (n / 10) <= n;
      MulMonotone(10, Pow10(k - 1), n / 10);
    }
  }

  lemma MulMonotone(c: nat, a: nat, b: nat)
    requires a <= b
    ensures c * a <= c * b
  {
  }

  lemma {:induction false} Pow10Monotone(a: nat, b: nat)
    requires a <= b
    ensures Pow10(a) <= Pow10(b)
  {
    if a < b {
      Pow10Monotone(a, b - 1);
    }
  }

  lemma DotIndexAfter(whole: string, rest: string)
    requires '.' !in whole
    ensures DotIndex(whole + "." + rest) == Some(|whole|)
  {
    var s := whole + "." + rest;
    assert s[|whole|] == '.';
    assert s[..|whole|] == whole;
  }

  /** Unsigned canonical rendering of `n / 10^scale`. */
  function FormatUnsigned(n: nat, scale: nat): string {
    if scale == 0 then NatToDigits(n)
    else
      var p := Pow10(scale);
      DivModBounds(n, p);
      NatToDigits(n / p) + "." + Padded(n % p, scale)
  }

  /** Canonical rendering: sign, integer part, and `scale` fraction digits. */
  function Format(d: Decimal): string {
    if d.digits < 0 then "-" + FormatUnsigned(-d.digits, d.scale)
    else FormatUnsigned(d.digits, d.scale)
  }

  lemma {:induction false} ParseFormatUnsigned(n: nat, scale: nat)
    ensures ParseUnsigned(FormatUnsigned(n, scale)) == Some((n, scale))
  {
    var body := FormatUnsigned(n, scale);
    if scale == 0 {
      NatToDigitsValue(n);
    } else {
      var p := Pow10(scale);
      var whole := NatToDigits(n / p);
      var fraction := Padded(n % p, scale);
      assert body == whole + "." + fraction;
      assert body[..|whole|] == whole;
      assert body[|whole| + 1..] == fraction;
      DotIndexAfter(whole, fraction);
      DigitsValueAppend(whole, fraction);
      assert ParseUnsigned(body) == Some((DigitsValue(whole + fraction), scale));
      NatToDigitsValue(n / p);
      DivMod(n, p);
    }
  }

  lemma DivModBounds(n: nat, p: nat)
    requires p > 0
    ensures 0 <= n / p && 0 <= n % p < p
  {
  }

  lemma DivMod(n: nat, p: nat)
    requires p > 0
    ensures (n / p) * p + n % p == n
  {
  }

  /** Every decimal is read back exactly from its canonical rendering. */
  lemma {:induction false} ParseFormat(d: Decimal)
    ensures Parse(Format(d)) == Some(d)
  {
    var s := Format(d);
    if d.digits < 0 {
      var u := FormatUnsigned(-d.digits, d.scale);
      ParseFormatUnsigned(-d.digits, d.scale);
      assert s == "-" + u;
      assert s[1..] == u;
      assert Parse(s) == Some(Decimal(Signed(true, -d.digits), d.scale));
    } else {
      var u := FormatUnsigned(d.digits, d.scale);
      ParseFormatUnsigned(d.digits, d.scale);
      UnsignedStartsWithDigit(d.digits, d.scale);
      assert s == u;
    }
  }

  lemma UnsignedStartsWithDigit(n: nat, scale: nat)
    ensures |FormatUnsigned(n, scale)| > 0 && FormatUnsigned(n, scale)[0] != '-'
  {
    var u := FormatUnsigned(n, scale);
    var w := NatToDigits(if scale == 0 then n else n / Pow10(scale));
    assert u[..|w|] == w;
    assert u[0] == w[0];
    assert IsDigit(w[0]);
  }

  /** `parseFloat(a) > parseFloat(b)`: false whenever either side is NaN. */
  predicate Exceeds(a: Option<Decimal>, b: Option<Decimal>) {
    a.Some? && b.Some? &&
    a.value.digits * Pow10(b.value.scale) > b.value.digits * Pow10(a.value.scale)
  }

  /** `!(isNaN(x) || x <= 0)`. */
  predicate IsPositive(a: Option<Decimal>) {
    a.Some? && a.value.digits > 0
  }

  /** Exact scaling of an amount to integer units with `decimals` fraction
      digits (web3 `toWei` with unit ether = 18 or mwei = 6): refused for a
      negative amount or one written with more fraction digits than the
      unit has. */
  function ToUnits(d: Decimal, decimals: nat): (r: Option<nat>)
    ensures r.Some? <==> d.digits >= 0 && d.scale <= decimals
    ensures r.Some? ==> r.value * Pow10(d.scale) == d.digits * Pow10(decimals)
  {
    if d.digits < 0 || d.scale > decimals then None
    else
      Pow10Add(decimals - d.scale, d.scale);
      Some(d.digits * Pow10(decimals - d.scale))
  }

  /** Parses then scales; None when either step fails. */
  function AmountToUnits(amount: string, decimals: nat): (r: Option<nat>)
    ensures r.Some? ==> Parse(amount).Some? && ToUnits(Parse(amount).value, decimals) == r
  {
    match Parse(amount)
    case None => None
    case Some(d) => ToUnits(d, decimals)
  }

  /** Digits, a point and digits read back as one scaled integer. */
  lemma ParseFraction(whole: string, fraction: string)
    requires AllDigits(whole) && AllDigits(fraction) && |whole| + |fraction| > 0
    ensures AllDigits(whole + fraction)
    ensures Parse(whole + "." + fraction) == Some(Decimal(DigitsValue(whole + fraction), |fraction|))
  {
    var s := whole + "." + fraction;
    NoSignOrPoint(whole);
    DotIndexAfter(whole, fraction);
    assert s[..|whole|] == whole && s[|whole| + 1..] == fraction;
    DigitsValueAppend(whole, fraction);
    var n := DigitsValue(whole + fraction);
    assert ParseUnsigned(s) == Some((n, |fraction|));
    assert s[0] != '-' by {
      if |whole| > 0 { assert s[0] == whole[0]; } else { assert s[0] == '.'; }
    }
  }

  lemma NoSignOrPoint(s: string)
    requires AllDigits(s)
    ensures '.' !in s && '-' !in s
  {
    forall i | 0 <= i < |s| ensures s[i] != '.' && s[i] != '-' {
      assert IsDigit(s[i]);
    }
  }

  /** A six-decimal stablecoin amount scales to an exact integer. */
  lemma StablecoinScaling()
    ensures AmountToUnits("12.5", 6) == Some(12500000)
  {
    ParseFraction("12", "5");
    assert "12" + "." + "5" == "12.5";
    DigitsValueAppend("12", "5");
    assert DigitsValue("12") == 12 by { assert "12"[..1] == "1"; }
    assert DigitsValue("5") == 5;
  }

  /** One whole coin is 10^18 base units. */
  lemma WholeCoinScaling()
    ensures AmountToUnits("1", 18) == Some(Pow10(18))
  {
    assert DotIndex("1") == None;
    assert DigitsValue("1") == 1;
    assert Parse("1") == Some(Decimal(1, 0));
  }

  /** More fraction digits than the unit has is refused, not rounded. */
  lemma ExcessPrecisionRefused()
    ensures AmountToUnits("0.1234567", 6) == None
  {
    ParseFraction("0", "1234567");
    assert "0" + "." + "1234567" == "0.1234567";
    assert AllDigits("1234567");
  }
}

=== FILE: kyc.dfy ===
/** Identity verification through the KYC vendor: `startKyc` creates or
    resumes the user's applicant, and `sumsubWebhook` records the vendor's
    review. A `user_kyc` row moves INITIATED/pending → completed, and
    completed is final. Vendor calls and the signature check are inputs. */
module Kyc {
  import opened Common
  import opened Records
  import opened Store

  /** `UserKyc.findOne({ where: { userId } })`. */
  function FindByUser(ks: seq<UserKyc>, userId: string): Option<nat> {
    FirstIndex(ks, (k: UserKyc) => k.userId == Some(userId))
  }

  /** `UserKyc.findOne({ where: { applicantId } })`. */
  function FindByApplicant(ks: seq<UserKyc>, applicantId: string): Option<nat> {
    FirstIndex(ks, (k: UserKyc) => k.applicantId == Some(applicantId))
  }

  /** The unique index on `applicantId` (NULLs never collide). */
  predicate UniqueApplicants(ks: seq<UserKyc>) {
    forall i, j :: 0 <= i < j < |ks| && ks[i].applicantId.Some? ==> ks[i].applicantId != ks[j].applicantId
  }

  // ---------------------------------------------------------------- start

  datatype StartReply =
    | UserNotFound
    | Started(accessToken: string, reviewStatus: ReviewStatus)
    | StartFailed
  {
    function Code(): nat {
      match this
      case UserNotFound => 404
      case Started(_, _) => 200
      case StartFailed => 500
    }
  }

  /** The stores after the call, the reply, whether a new applicant was
      requested from the vendor, and the applicant id a token was
      requested for. */
  datatype StartOutcome = StartOutcome(
    users: seq<User>, kycs: seq<UserKyc>, reply: StartReply,
    applicantRequested: bool, tokenFor: Option<Option<string>>)

  /** A user marked as having started verification at the basic level. */
  function MarkPending(u: User): User {
    u.(kycStatus := KycPending, kycLevel := Some("basic"))
  }

  /** `applicant` is the vendor's new applicant id (None: the request
      failed); `token` is the access token (None: the request failed). */
  function StartKyc(users: seq<User>, kycs: seq<UserKyc>, userId: string,
                    applicant: Option<string>, token: Option<string>): (r: StartOutcome)
    ensures r.reply == UserNotFound <==> FindUser(users, userId).None?
    ensures r.applicantRequested <==> FindUser(users, userId).Some? && FindByUser(kycs, userId).None?
    // An unknown user is answered before anything is written or requested.
    ensures FindUser(users, userId).None? ==> r.users == users && r.kycs == kycs && r.tokenFor.None?
    // Resume: the stored applicant is reused and nothing is written.
    ensures FindUser(users, userId).Some? && FindByUser(kycs, userId).Some? ==>
      var k := kycs[FindByUser(kycs, userId).value];
      && r.users == users && r.kycs == kycs
      && r.tokenFor == Some(k.applicantId)
      && (token.Some? ==> r.reply == Started(token.value, k.reviewStatus))
      && (token.None? ==> r.reply == StartFailed)
    // First start: the user is marked pending and one INITIATED row is
    // added, unless the vendor fails or its id is already on file.
    ensures r.applicantRequested && applicant.Some? ==> r.users == UpdateUser(users, userId, MarkPending)
    ensures r.applicantRequested && applicant.Some? && FindByApplicant(kycs, applicant.value).None? ==>
      && r.kycs == kycs + [UserKyc(Some(userId), applicant, Initiated, None, None, None)]
      && r.tokenFor == Some(applicant)
      && r.reply == (if token.Some? then Started(token.value, Initiated) else StartFailed)
    ensures r.applicantRequested && applicant.Some? && FindByApplicant(kycs, applicant.value).Some? ==>
      r.kycs == kycs && r.reply == StartFailed && r.tokenFor.None?
    ensures r.applicantRequested && applicant.None? ==>
      r.users == users && r.kycs == kycs && r.reply == StartFailed && r.tokenFor.None?
  {
    if FindUser(users, userId).None? then StartOutcome(users, kycs, UserNotFound, false, None)
    else
      match FindByUser(kycs, userId)
      case Some(i) =>
        var k := kycs[i];
        var reply := if token.Some? then Started(token.value, k.reviewStatus) else StartFailed;
        StartOutcome(users, kycs, reply, false, Some(k.applicantId))
      case None =>
        match applicant
        case None => StartOutcome(users, kycs, StartFailed, true, None)
        case Some(aid) =>
          var users' := UpdateUser(users, userId, MarkPending);
          if FindByApplicant(kycs, aid).Some? then
            // The unique index refuses the row; the user update stays.
            StartOutcome(users', kycs, StartFailed, true, None)
          else
            var row := UserKyc(Some(userId), Some(aid), Initiated, None, None, None);
            var reply := if token.Some? then Started(token.value, Initiated) else StartFailed;
            StartOutcome(users', kycs + [row], reply, true, Some(Some(aid)))
  }

  /** Starting keeps applicant ids unique and gives each user at most the
      one row it finds: a second start resumes rather than creating. */
  lemma StartKeepsApplicantsUnique(users: seq<User>, kycs: seq<UserKyc>, userId: string,
                                   applicant: Option<string>, token: Option<string>)
    requires UniqueApplicants(kycs)
    ensures UniqueApplicants(StartKyc(users, kycs, userId, applicant, token).kycs)
  {
    var r := StartKyc(users, kycs, userId, applicant, token);
    if |r.kycs| > |kycs| {
      var aid := applicant.value;
      assert FindByApplicant(kycs, aid).None?;
      assert forall i :: 0 <= i < |kycs| ==> kycs[i].applicantId != Some(aid);
    }
  }

  /** Starting twice asks the vendor for an applicant once: the second
      call resumes the row the first one created. */
  lemma {:induction false} SecondStartResumes(users: seq<User>, kycs: seq<UserKyc>, userId: string,
                                              applicant: Option<string>, token: Option<string>,
                                              applicant': Option<string>, token': Option<string>)
    requires StartKyc(users, kycs, userId, applicant, token).reply.Started?
    ensures var r := StartKyc(users, kycs, userId, applicant, token);
      var r' := StartKyc(r.users, r.kycs, userId, applicant', token');
      !r'.applicantRequested && r'.users == r.users && r'.kycs == r.kycs
  {
    var r := StartKyc(users, kycs, userId, applicant, token);
    var i := FindUser(users, userId).value;
    assert r.users[i].id == userId;
    if FindByUser(kycs, userId).None? {
      assert r.kycs[|kycs|].userId == Some(userId);
    }
  }

  // -------------------------------------------------------------- webhook

  /** The parsed notification: applicant id, review answer and reject
      reason (each absent when missing or empty), and the raw JSON. */
  datatype Review = Review(
    applicantId: Option<string>, reviewAnswer: Option<string>, rejectReason: Option<string>, raw: string)

  datatype WebhookReply =
    | InvalidSignature
    | Acknowledged(success: bool)
  {
    function Code(): nat {
      if this == InvalidSignature then 401 else 200
    }
  }

  datatype WebhookOutcome = WebhookOutcome(users: seq<User>, kycs: seq<UserKyc>, reply: WebhookReply)

  /** The review applied to an open row: the raw notification is kept;
      GREEN and RED complete the review, anything else leaves it pending
      with that answer. */
  function ApplyReview(k: UserKyc, review: Review): (r: UserKyc)
    ensures r.userId == k.userId && r.applicantId == k.applicantId
    ensures r.rawWebhook == Some(review.raw)
    ensures r.reviewStatus == Completed <==> review.reviewAnswer in {Some("GREEN"), Some("RED")}
    ensures r.reviewStatus != Completed ==>
      r.reviewStatus == ReviewPending && r.reviewAnswer == review.reviewAnswer && r.rejectReason == k.rejectReason
    ensures review.reviewAnswer == Some("RED") ==> r.rejectReason == review.rejectReason
    ensures review.reviewAnswer == Some("GREEN") ==> r.rejectReason == k.rejectReason
  {
    var k1 := k.(rawWebhook := Some(review.raw));
    if review.reviewAnswer == Some("GREEN") then
      k1.(reviewStatus := Completed, reviewAnswer := Some("GREEN"))
    else if review.reviewAnswer == Some("RED") then
      k1.(reviewStatus := Completed, reviewAnswer := Some("RED"), rejectReason := review.rejectReason)
    else
      k1.(reviewStatus := ReviewPending, reviewAnswer := review.reviewAnswer)
  }

  /** The user's KYC status a review decides, if it decides one. */
  function Verdict(review: Review): Option<KycStatus> {
    if review.reviewAnswer == Some("GREEN") then Some(Approved)
    else if review.reviewAnswer == Some("RED") then Some(Rejected)
    else None
  }

  /** `signatureValid` is the HMAC check of the body; `payload` is None
      when the raw body is missing, is not JSON, or is the JSON `null`
      (reading a field of it throws, which also ends in an unsuccessful
      acknowledgement). */
  function SumsubWebhook(users: seq<User>, kycs: seq<UserKyc>, signatureValid: bool,
                         payload: Option<Review>): (r: WebhookOutcome)
    ensures r.reply.Code() == 401 <==> !signatureValid
    ensures r.reply.Code() == 200 <==> signatureValid
    ensures r.reply == Acknowledged(false) <==> signatureValid && payload.None?
    ensures |r.kycs| == |kycs| && |r.users| == |users|
    // Only the first row with the notification's applicant id may change,
    // and only while it is not completed.
    ensures forall j :: 0 <= j < |kycs| && r.kycs[j] != kycs[j] ==>
      && signatureValid && payload.Some? && payload.value.applicantId.Some?
      && FindByApplicant(kycs, payload.value.applicantId.value) == Some(j)
      && kycs[j].reviewStatus != Completed
      && r.kycs[j] == ApplyReview(kycs[j], payload.value)
    // Users change only when the review completes, and only the row's user.
    ensures r.users != users ==>
      && signatureValid && payload.Some? && Verdict(payload.value).Some?
      && payload.value.applicantId.Some?
      && FindByApplicant(kycs, payload.value.applicantId.value).Some?
      && var j := FindByApplicant(kycs, payload.value.applicantId.value).value;
      && kycs[j].reviewStatus != Completed && kycs[j].userId.Some?
      && r.users == UpdateUser(users, kycs[j].userId.value,
                               (u: User) => u.(kycStatus := Verdict(payload.value).value))
    // A signed notification for an open row always applies the review to
    // it, and a GREEN or RED verdict always reaches the row's user.
    ensures signatureValid && payload.Some? && Present(payload.value.applicantId) &&
            FindByApplicant(kycs, payload.value.applicantId.value).Some? ==>
      var j := FindByApplicant(kycs, payload.value.applicantId.value).value;
      kycs[j].reviewStatus != Completed ==>
        && r.reply == Acknowledged(true)
        && r.kycs == kycs[j := ApplyReview(kycs[j], payload.value)]
        && (Verdict(payload.value).Some? && kycs[j].userId.Some? ==>
              r.users == UpdateUser(users, kycs[j].userId.value,
                                    (u: User) => u.(kycStatus := Verdict(payload.value).value)))
        && (Verdict(payload.value).None? || kycs[j].userId.None? ==> r.users == users)
  {
    if !signatureValid then WebhookOutcome(users, kycs, InvalidSignature)
    else
      match payload
      case None => WebhookOutcome(users, kycs, Acknowledged(false))
      case Some(review) =>
        if !Present(review.applicantId) then WebhookOutcome(users, kycs, Acknowledged(true))
        else
          match FindByApplicant(kycs, review.applicantId.value)
          case None => WebhookOutcome(users, kycs, Acknowledged(true))
          case Some(j) =>
            var k := kycs[j];
            if k.reviewStatus == Completed then WebhookOutcome(users, kycs, Acknowledged(true))
            else
              var kycs' := kycs[j := ApplyReview(k, review)];
              var users' :=
                match Verdict(review)
                case None => users
                case Some(v) =>
                  if k.userId.None? then users  // `where id IS NULL` matches no user
                  else UpdateUser(users, k.userId.value, (u: User) => u.(kycStatus := v));
              WebhookOutcome(users', kycs', Acknowledged(true))
  }

  /** GREEN completes the row and approves its user; RED completes it,
      rejects the user and keeps the payload's reason; any other answer
      leaves the row pending and the user as it was. */
  lemma ReviewOutcome(users: seq<User>, kycs: seq<UserKyc>, review: Review, j: nat, u: nat)
    requires Present(review.applicantId) && FindByApplicant(kycs, review.applicantId.value) == Some(j)
    requires kycs[j].reviewStatus != Completed
    requires kycs[j].userId.Some? && u < |users| && users[u].id == kycs[j].userId.value
    ensures var r := SumsubWebhook(users, kycs, true, Some(review));
      && r.reply == Acknowledged(true)
      && r.kycs[j].rawWebhook == Some(review.raw)
      && (review.reviewAnswer == Some("GREEN") ==>
            r.kycs[j].reviewStatus == Completed && r.kycs[j].reviewAnswer == Some("GREEN") &&
            r.users[u].kycStatus == Approved)
      && (review.reviewAnswer == Some("RED") ==>
            r.kycs[j].reviewStatus == Completed && r.kycs[j].reviewAnswer == Some("RED") &&
            r.kycs[j].rejectReason == review.rejectReason && r.users[u].kycStatus == Rejected)
      && (review.reviewAnswer !in {Some("GREEN"), Some("RED")} ==>
            r.kycs[j].reviewStatus == ReviewPending && r.kycs[j].reviewAnswer == review.reviewAnswer &&
            r.users == users)
  {
  }

  /** Completed rows are final: no notification changes them. */
  lemma CompletedIsAbsorbing(users: seq<User>, kycs: seq<UserKyc>, signatureValid: bool,
                             payload: Option<Review>, j: nat)
    requires j < |kycs| && kycs[j].reviewStatus == Completed
    ensures SumsubWebhook(users, kycs, signatureValid, payload).kycs[j] == kycs[j]
  {
  }

  /** A notification as it arrives: signature verdict and parsed body. */
  datatype Delivery = Delivery(signatureValid: bool, payload: Option<Review>)

  /** The stores after a sequence of notifications, in order. */
  function Deliver(users: seq<User>, kycs: seq<UserKyc>, ds: seq<Delivery>): (r: WebhookOutcome)
    ensures |r.kycs| == |kycs|
    decreases |ds|
  {
    if |ds| == 0 then WebhookOutcome(users, kycs, Acknowledged(true))
    else
      var first := SumsubWebhook(users, kycs, ds[0].signatureValid, ds[0].payload);
      Deliver(first.users, first.kycs, ds[1..])
  }

  /** However many notifications follow, a completed row keeps its
      answer, reason and raw notification. */
  lemma {:induction false} CompletedStaysCompleted(users: seq<User>, kycs: seq<UserKyc>,
                                                   ds: seq<Delivery>, j: nat)
    requires j < |kycs| && kycs[j].reviewStatus == Completed
    ensures Deliver(users, kycs, ds).kycs[j] == kycs[j]
    decreases |ds|
  {
    if |ds| > 0 {
      var first := SumsubWebhook(users, kycs, ds[0].signatureValid, ds[0].payload);
      CompletedIsAbsorbing(users, kycs, ds[0].signatureValid, ds[0].payload, j);
      CompletedStaysCompleted(first.users, first.kycs, ds[1..], j);
    }
  }

  /** The webhook never adds, removes or re-keys a row, so applicant ids
      stay unique. */
  lemma WebhookKeepsApplicantsUnique(users: seq<User>, kycs: seq<UserKyc>, signatureValid: bool,
                                     payload: Option<Review>)
    requires UniqueApplicants(kycs)
    ensures UniqueApplicants(SumsubWebhook(users, kycs, signatureValid, payload).kycs)
  {
    var r := SumsubWebhook(users, kycs, signatureValid, payload);
    assert forall j :: 0 <= j < |kycs| ==> r.kycs[j].applicantId == kycs[j].applicantId;
  }
}

=== FILE: manage.dfy ===
/** `managePayment`: back-office operations on a captured payment. The
    operation name is matched case-insensitively against a fixed table of
    gateway operation codes; on a gateway success the record found by its
    `paymentId` column takes the operation's fixed status. */
module Manage {
  import opened Common
  import opened ResultCodes
  import opened Records
  import opened Store

  datatype Request = Request(
    pathId: Option<string>, operation: Option<string>, amount: Option<string>, currency: Option<string>)

  datatype GatewayReply =
    | Replied(httpStatus: nat, code: Option<string>, referencedId: Option<string>, referenceId: Option<string>)
    | RequestFailed

  datatype Reply =
    | MissingPaymentId
    | MissingFields
    | InvalidOperation
    | Relayed(httpStatus: nat)
    | ServerError
  {
    function Code(): nat {
      match this
      case MissingPaymentId => 400
      case MissingFields => 400
      case InvalidOperation => 400
      case Relayed(s) => if s == 0 then 200 else s
      case ServerError => 500
    }
  }

  /** The form posted to the gateway for `pathId`. */
  datatype ManageCall = ManageCall(id: string, amount: string, currency: string, paymentType: string)

  datatype Outcome = Outcome(payments: seq<Payment>, reply: Reply, sent: Option<ManageCall>)

  /** The operation table, keyed by the lower-cased operation name. */
  function OperationCode(name: string): Option<string> {
    if name == "refund" then Some("RF")
    else if name == "rebill" then Some("RB")
    else if name == "chargeback" then Some("CB")
    else if name == "chargeback reversal" then Some("CB_RV")
    else None
  }

  /** The status an operation leaves behind; rebill keeps the current one. */
  function StatusAfter(name: string, current: PaymentStatus): PaymentStatus {
    if name == "refund" then Refunded
    else if name == "chargeback" then Chargeback
    else if name == "chargeback reversal" then ChargebackReversed
    else current
  }

  /** The id a successful operation's record is looked up by: the reply's
      original-transaction reference, else the path id. */
  function SearchId(req: Request, gateway: GatewayReply): Option<string>
    requires gateway.Replied?
  {
    OrElse(OrElse(gateway.referencedId, gateway.referenceId), req.pathId)
  }

  function ManagePayment(payments: seq<Payment>, req: Request, gateway: GatewayReply): (r: Outcome)
    ensures r.sent.Some? <==>
      Present(req.pathId) && Present(req.operation) && Present(req.amount) && Present(req.currency) &&
      OperationCode(ToLower(req.operation.value)).Some?
    ensures r.sent.Some? ==>
      r.sent.value == ManageCall(req.pathId.value, req.amount.value, req.currency.value,
                                 OperationCode(ToLower(req.operation.value)).value)
    ensures r.sent.None? ==> r.payments == payments && r.reply.Code() == 400
    // The gates, in source order.
    ensures !Present(req.pathId) ==> r.reply == MissingPaymentId
    ensures Present(req.pathId) && (!Present(req.operation) || !Present(req.amount) || !Present(req.currency)) ==>
      r.reply == MissingFields
    ensures (Present(req.pathId) && Present(req.operation) && Present(req.amount) && Present(req.currency) &&
             OperationCode(ToLower(req.operation.value)).None?) ==>
      r.reply == InvalidOperation
    ensures gateway.RequestFailed? ==> r.payments == payments
    ensures gateway.Replied? && !SyncSuccess(gateway.code.GetOr("")) ==> r.payments == payments
    ensures r.sent.Some? && gateway.RequestFailed? ==> r.reply == ServerError && r.reply.Code() == 500
    ensures r.sent.Some? && gateway.Replied? ==> r.reply == Relayed(gateway.httpStatus)
    ensures |r.payments| == |payments|
    ensures forall j :: 0 <= j < |payments| && r.payments[j] != payments[j] ==>
      r.payments[j] == payments[j].(status := r.payments[j].status)
  {
    if !Present(req.pathId) then Outcome(payments, MissingPaymentId, None)
    else if !Present(req.operation) || !Present(req.amount) || !Present(req.currency) then
      Outcome(payments, MissingFields, None)
    else
      var name := ToLower(req.operation.value);
      match OperationCode(name)
      case None => Outcome(payments, InvalidOperation, None)
      case Some(paymentType) =>
        var call := ManageCall(req.pathId.value, req.amount.value, req.currency.value, paymentType);
        match gateway
        case RequestFailed => Outcome(payments, ServerError, Some(call))
        case Replied(httpStatus, code, referencedId, referenceId) =>
          if !SyncSuccess(code.GetOr("")) then Outcome(payments, Relayed(httpStatus), Some(call))
          else
            var searchId := SearchId(req, gateway);
            match FindByPaymentId(payments, searchId.value)
            case None => Outcome(payments, Relayed(httpStatus), Some(call))
            case Some(i) =>
              var rec := payments[i];
              Outcome(SetAt(payments, i, rec.(status := StatusAfter(name, rec.status))),
                      Relayed(httpStatus), Some(call))
  }

  /** On a 000 reply the first row whose `paymentId` column equals the
      search id takes the operation's status: refunded, chargeback or
      chargeback_reversed, and rebill leaves it as it was. */
  lemma SuccessfulOperationApplied(payments: seq<Payment>, req: Request, gateway: GatewayReply, i: nat)
    requires Present(req.pathId) && Present(req.operation) && Present(req.amount) && Present(req.currency)
    requires OperationCode(ToLower(req.operation.value)).Some?
    requires gateway.Replied? && SyncSuccess(gateway.code.GetOr(""))
    requires FindByPaymentId(payments, SearchId(req, gateway).value) == Some(i)
    ensures var r := ManagePayment(payments, req, gateway);
      var name := ToLower(req.operation.value);
      && r.payments == payments[i := payments[i].(status := StatusAfter(name, payments[i].status))]
      && (name == "refund" ==> r.payments[i].status == Refunded)
      && (name == "chargeback" ==> r.payments[i].status == Chargeback)
      && (name == "chargeback reversal" ==> r.payments[i].status == ChargebackReversed)
      && (name == "rebill" ==> r.payments == payments)
  {
  }

  /** The record is found only through its `paymentId` column: a row that
      carries the search id only as its `referenceId` is never touched. */
  lemma ReferenceIdNotConsulted(payments: seq<Payment>, req: Request, gateway: GatewayReply)
    requires gateway.Replied? && Present(req.pathId)
    requires forall j :: 0 <= j < |payments| ==> payments[j].paymentId != SearchId(req, gateway)
    ensures ManagePayment(payments, req, gateway).payments == payments
  {
  }

  /** The operation name is matched ignoring case. */
  lemma OperationCaseInsensitive(payments: seq<Payment>, req: Request, gateway: GatewayReply)
    requires Present(req.operation)
    ensures var lowered := req.(operation := Some(ToLower(req.operation.value)));
      ManagePayment(payments, lowered, gateway) == ManagePayment(payments, req, gateway)
  {
    ToLowerIdempotent(req.operation.value);
  }

  /** Worked example: a refund of a captured payment confirmed with
      000.000.000 marks it refunded; a rebill with the same reply leaves
      it `success`. */
  lemma RefundAndRebillExample(p: Payment)
    requires p.status == Success && p.paymentId == Some("8ac7")
    ensures var reply := Replied(200, Some("000.000.000"), None, None);
      && ManagePayment([p], Request(Some("8ac7"), Some("Refund"), Some("92.00"), Some("EUR")), reply).payments
         == [p.(status := Refunded)]
      && ManagePayment([p], Request(Some("8ac7"), Some("rebill"), Some("92.00"), Some("EUR")), reply).payments
         == [p]
  {
    assert "000.000.000"[..3] == "000";
    assert ToLower("Refund") == "refund";
    assert ToLower("rebill") == "rebill";
  }
}

=== FILE: payout.dfy ===
/** `transferCrypto`: pay the crypto side of a captured payment out of the
    admin wallet, at most once per payment. The chain (gas price, nonce,
    gas estimate, signing and broadcast) is an input; the routine's own
    logic is the order of its checks, the unit scaling, and the one
    `CryptoTransfers` row plus the `transferStatus` it writes per call. */
module Payout {
  import opened Common
  import opened Decimals
  import opened Records
  import opened Store

  /** Networks with a configured RPC endpoint: nine mainnets and three
      testnets. */
  const Networks: set<string> := {
    "BSC", "ETH", "POLYGON", "AVALANCHE", "ARBITRUM", "OPTIMISM", "BASE", "FANTOM", "CRONOS",
    "BSC_TESTNET", "SEPOLIA", "MUMBAI"}

  /** Symbols paid as the chain's native coin rather than as a token. */
  const NativeCurrencies: seq<string> := ["ETH", "BNB", "MATIC", "AVAX", "FTM", "CRO"]

  /** Gas limit of a native transfer, and the token-transfer limit used
      when estimation fails. */
  const NativeGas: nat := 21000
  const FallbackTokenGas: nat := 65000

  /** The fraction digits a token's amounts are scaled by; 18 for every
      token not listed. */
  function TokenDecimals(currency: string): (r: nat)
    ensures r == 6 || r == 18
    ensures r == 6 <==> currency == "USDT" || currency == "USDC"
  {
    if currency == "USDT" then 6
    else if currency == "USDC" then 6
    else if currency == "DAI" then 18
    else if currency == "BUSD" then 18
    else 18
  }

  /** The ERC-20 contract of `currency` on `network`, where one is configured. */
  function TokenContract(network: string, currency: string): Option<string> {
    if network == "BSC" then
      if currency == "USDT" then Some("0x55d398326f99059fF775485246999027B3197955")
      else if currency == "USDC" then Some("0x8AC76a51cc950d9822D68b83fE1Ad97B32Cd580d")
      else None
    else if network == "ETH" then
      if currency == "USDT" then Some("0xdAC17F958D2ee523a2206206994597C13D831ec7")
      else if currency == "USDC" then Some("0xA0b86991c6218b36c1d19D4a2e9Eb0cE3606eB48")
      else None
    else if network == "POLYGON" then
      if currency == "USDT" then Some("0xc2132D05D31c914a87C6611C10748AEb04B58e8F")
      else if currency == "USDC" then Some("0x3c499c542cEF5E3811e1192ce70d8cC03d5c3359")
      else None
    else None
  }

  /** Admin wallet settings from the environment. */
  datatype Config = Config(adminWallet: Option<string>, adminKey: Option<string>)

  /** What the chain answers: whether gas price and nonce could be read,
      the token-transfer gas estimate (None when estimation fails), and
      the hash of the mined transaction (None when signing or broadcast
      fails). */
  datatype Chain = Chain(rpcReady: bool, gasEstimate: Option<nat>, txHash: Option<string>)

  /** The arguments: the payment's owner and internal id, and the payout's
      amount, currency, recipient and network as the payment row holds
      them (an empty text is missing). */
  datatype Transfer = Transfer(
    userId: string, paymentId: string, amount: string, currency: string,
    walletAddress: string, network: string)

  /** The transaction handed to the chain. */
  datatype Tx =
    | NativeTx(from: string, to: string, wei: nat, gas: nat)
    | TokenTx(from: string, contract: string, recipient: string, units: nat, gas: nat)

  datatype Failure =
    | MissingDetails
    | UnsupportedNetwork
    | AdminConfigMissing
    | RpcUnavailable
    | InvalidAmount
    | TokenNotConfigured
    | BroadcastFailed

  datatype Result =
    | Paid(txHash: string)
    | AlreadyPaid(previousHash: Option<string>)
    | NotPaid(why: Failure)

  /** A transaction ready to sign, or the reason none can be built. */
  datatype Build = Built(tx: Tx) | Unbuildable(why: Failure)

  datatype Outcome = Outcome(
    transfers: seq<CryptoTransfer>, payments: seq<Payment>, result: Result, sent: Option<Tx>)

  /** Recipient, amount and network are all given. */
  predicate HasDetails(t: Transfer) {
    t.walletAddress != "" && t.amount != "" && t.network != ""
  }

  /** The transfer passes the input checks and no earlier payout of the
      payment succeeded. */
  predicate Unpaid(ts: seq<CryptoTransfer>, t: Transfer) {
    HasDetails(t) && t.network in Networks && FindPaid(ts, t.paymentId).None?
  }

  /** `CryptoTransfer.findOne` by payment id and status `success`. */
  function FindPaid(ts: seq<CryptoTransfer>, paymentId: string): Option<nat> {
    FirstIndex(ts, (t: CryptoTransfer) => t.paymentId == Some(paymentId) && t.status == TransferSuccess)
  }

  /** The transaction the routine would build, or why it cannot: native
      coins are scaled to 18 decimals with a fixed gas limit, tokens need a
      configured contract and are scaled by their own decimals. */
  function BuildTx(t: Transfer, from: string, chain: Chain): (r: Build)
    ensures r.Built? && r.tx.NativeTx? ==>
      t.currency in NativeCurrencies && r.tx.gas == NativeGas && r.tx.to == t.walletAddress &&
      AmountToUnits(t.amount, 18) == Some(r.tx.wei)
    ensures r.Built? && r.tx.TokenTx? ==>
      && t.currency !in NativeCurrencies
      && TokenContract(t.network, t.currency) == Some(r.tx.contract)
      && r.tx.recipient == t.walletAddress
      && AmountToUnits(t.amount, TokenDecimals(t.currency)) == Some(r.tx.units)
      && r.tx.gas == chain.gasEstimate.GetOr(FallbackTokenGas)
    ensures r.Built? ==> r.tx.from == from
    ensures r.Built? <==>
      && (t.currency in NativeCurrencies || TokenContract(t.network, t.currency).Some?)
      && AmountToUnits(t.amount, if t.currency in NativeCurrencies then 18 else TokenDecimals(t.currency)).Some?
    ensures r.Unbuildable? ==> r.why == TokenNotConfigured || r.why == InvalidAmount
    ensures r.Unbuildable? && r.why == TokenNotConfigured <==>
      t.currency !in NativeCurrencies && TokenContract(t.network, t.currency).None?
  {
    if t.currency in NativeCurrencies then
      match AmountToUnits(t.amount, 18)
      case None => Unbuildable(InvalidAmount)
      case Some(wei) => Built(NativeTx(from, t.walletAddress, wei, NativeGas))
    else
      match TokenContract(t.network, t.currency)
      case None => Unbuildable(TokenNotConfigured)
      case Some(contract) =>
        match AmountToUnits(t.amount, TokenDecimals(t.currency))
        case None => Unbuildable(InvalidAmount)
        case Some(units) =>
          Built(TokenTx(from, contract, t.walletAddress, units, chain.gasEstimate.GetOr(FallbackTokenGas)))
  }

  /** The row written after a failure: no hash, not processed, and the
      admin wallet or the word `admin` as sender. */
  function FailedRow(t: Transfer, config: Config): CryptoTransfer {
    CryptoTransfer(Some(t.userId), Some(t.paymentId), t.amount, t.currency, t.walletAddress,
                   OrElse(config.adminWallet, Some("admin")).value, t.network, None, false, TransferFailed)
  }

  /** Catch-all failure path: one `failed` row and the payment's
      `transferStatus` set to `failed`. */
  function Failed(ts: seq<CryptoTransfer>, ps: seq<Payment>, t: Transfer, config: Config,
                 why: Failure, sent: Option<Tx>): Outcome
  {
    Outcome(ts + [FailedRow(t, config)], SetTransferStatus(ps, t.paymentId, TransferFailed), NotPaid(why), sent)
  }

  function TransferCrypto(ts: seq<CryptoTransfer>, ps: seq<Payment>, t: Transfer,
                          config: Config, chain: Chain): (r: Outcome)
    // Exactly one row is written unless an earlier successful payout is found.
    ensures r.result.AlreadyPaid? <==>
      HasDetails(t) && t.network in Networks && FindPaid(ts, t.paymentId).Some?
    ensures r.result.AlreadyPaid? ==>
      r.transfers == ts && r.payments == ps && r.sent.None? &&
      r.result.previousHash == ts[FindPaid(ts, t.paymentId).value].txHash
    ensures !r.result.AlreadyPaid? ==>
      |r.transfers| == |ts| + 1 && r.transfers[..|ts|] == ts &&
      r.transfers[|ts|].paymentId == Some(t.paymentId) &&
      r.transfers[|ts|].walletAddress == t.walletAddress &&
      r.transfers[|ts|].cryptoAmount == t.amount
    // A success row carries the hash and the admin sender; the payment follows.
    ensures r.result.Paid? <==> !r.result.AlreadyPaid? && r.transfers[|ts|].status == TransferSuccess
    ensures r.result.Paid? ==>
      && r.sent.Some? && chain.txHash == Some(r.result.txHash)
      && Present(config.adminWallet) && Present(config.adminKey) && chain.rpcReady
      && r.transfers[|ts|] == CryptoTransfer(Some(t.userId), Some(t.paymentId), t.amount, t.currency,
                                             t.walletAddress, config.adminWallet.value, t.network,
                                             chain.txHash, true, TransferSuccess)
      && r.payments == SetTransferStatus(ps, t.paymentId, TransferSuccess)
    ensures r.result.NotPaid? ==>
      r.transfers[|ts|] == FailedRow(t, config) &&
      r.payments == SetTransferStatus(ps, t.paymentId, TransferFailed)
    // Of the payment rows only `transferStatus` ever changes.
    ensures |r.payments| == |ps|
    ensures forall j :: 0 <= j < |ps| ==> r.payments[j] == ps[j].(transferStatus := r.payments[j].transferStatus)
    // Nothing reaches the chain before the configuration and RPC checks pass.
    ensures r.sent.Some? ==> Present(config.adminWallet) && Present(config.adminKey) && chain.rpcReady
    // Each check, in order, decides the result when it is the first to fail.
    ensures !HasDetails(t) ==> r.result == NotPaid(MissingDetails) && r.sent.None?
    ensures HasDetails(t) && t.network !in Networks ==> r.result == NotPaid(UnsupportedNetwork) && r.sent.None?
    ensures Unpaid(ts, t) && !(Present(config.adminWallet) && Present(config.adminKey)) ==>
      r.result == NotPaid(AdminConfigMissing) && r.sent.None?
    ensures Unpaid(ts, t) && Present(config.adminWallet) && Present(config.adminKey) && !chain.rpcReady ==>
      r.result == NotPaid(RpcUnavailable) && r.sent.None?
    // Once every check passes, the built transaction is sent and the
    // chain's hash, if any, is the payout.
    ensures Unpaid(ts, t) && Present(config.adminWallet) && Present(config.adminKey) && chain.rpcReady ==>
      var b := BuildTx(t, config.adminWallet.value, chain);
      && (b.Unbuildable? ==> r.result == NotPaid(b.why) && r.sent.None?)
      && (b.Built? && chain.txHash.Some? ==> r.result == Paid(chain.txHash.value) && r.sent == Some(b.tx))
      && (b.Built? && chain.txHash.None? ==> r.result == NotPaid(BroadcastFailed) && r.sent == Some(b.tx))
  {
    if !HasDetails(t) then
      Failed(ts, ps, t, config, MissingDetails, None)
    else if t.network !in Networks then
      Failed(ts, ps, t, config, UnsupportedNetwork, None)
    else
      match FindPaid(ts, t.paymentId)
      case Some(i) => Outcome(ts, ps, AlreadyPaid(ts[i].txHash), None)
      case None =>
        if !Present(config.adminWallet) || !Present(config.adminKey) then
          Failed(ts, ps, t, config, AdminConfigMissing, None)
        else if !chain.rpcReady then
          Failed(ts, ps, t, config, RpcUnavailable, None)
        else
          var from := config.adminWallet.value;
          match BuildTx(t, from, chain)
          case Unbuildable(why) => Failed(ts, ps, t, config, why, None)
          case Built(tx) =>
            match chain.txHash
            case None => Failed(ts, ps, t, config, BroadcastFailed, Some(tx))
            case Some(hash) =>
              var row := CryptoTransfer(Some(t.userId), Some(t.paymentId), t.amount, t.currency,
                                        t.walletAddress, from, t.network, Some(hash), true, TransferSuccess);
              Outcome(ts + [row], SetTransferStatus(ps, t.paymentId, TransferSuccess), Paid(hash), Some(tx))
  }

  /** At most one `success` row per payment. */
  predicate AtMostOnePaid(ts: seq<CryptoTransfer>) {
    forall i, j :: 0 <= i < j < |ts| && ts[i].status == TransferSuccess && ts[j].status == TransferSuccess ==>
      ts[i].paymentId != ts[j].paymentId
  }

  /** The routine never writes a second `success` row for a payment, so
      the table keeps at most one per payment. */
  lemma {:induction false} PayoutKeepsAtMostOnePaid(ts: seq<CryptoTransfer>, ps: seq<Payment>, t: Transfer,
                                                   config: Config, chain: Chain)
    requires AtMostOnePaid(ts)
    ensures AtMostOnePaid(TransferCrypto(ts, ps, t, config, chain).transfers)
  {
    var r := TransferCrypto(ts, ps, t, config, chain);
    if r.result.Paid? {
      assert FindPaid(ts, t.paymentId).None?;
    }
  }

  /** Repeating a payout that succeeded changes nothing and reports the
      earlier hash, whatever the chain would answer now. */
  lemma {:induction false} PayoutIdempotent(ts: seq<CryptoTransfer>, ps: seq<Payment>, t: Transfer,
                                            config: Config, chain: Chain, chain': Chain)
    requires TransferCrypto(ts, ps, t, config, chain).result.Paid?
    ensures var r := TransferCrypto(ts, ps, t, config, chain);
      var r' := TransferCrypto(r.transfers, r.payments, t, config, chain');
      r'.transfers == r.transfers && r'.payments == r.payments &&
      r'.result == AlreadyPaid(Some(r.result.txHash)) && r'.sent.None?
  {
    var r := TransferCrypto(ts, ps, t, config, chain);
    var n := |ts|;
    assert FindPaid(ts, t.paymentId).None?;
    var p := (x: CryptoTransfer) => x.paymentId == Some(t.paymentId) && x.status == TransferSuccess;
    assert p(r.transfers[n]);
    assert forall j :: 0 <= j < n ==> !p(r.transfers[j]) by {
      forall j | 0 <= j < n ensures !p(r.transfers[j]) {
        assert r.transfers[j] == ts[j];
      }
    }
    assert FindPaid(r.transfers, t.paymentId) == Some(n);
  }

  /** A token transfer of USDT or USDC is scaled by 10^6, every other
      token and every native coin by 10^18; the float fallback for other
      decimal counts is never reached. */
  lemma ScalingByCurrency(t: Transfer, from: string, chain: Chain)
    requires BuildTx(t, from, chain).Built?
    ensures var tx := BuildTx(t, from, chain).tx;
      var d := Parse(t.amount).value;
      && Parse(t.amount).Some?
      && (tx.NativeTx? ==> tx.wei * Pow10(d.scale) == d.digits * Pow10(18))
      && (tx.TokenTx? && (t.currency == "USDT" || t.currency == "USDC") ==>
            tx.units * Pow10(d.scale) == d.digits * Pow10(6))
      && (tx.TokenTx? && t.currency != "USDT" && t.currency != "USDC" ==>
            tx.units * Pow10(d.scale) == d.digits * Pow10(18))
  {
  }

  /** An empty admin wallet setting is falsy: the failure row written
      for the missing configuration names `admin` as its sender. */
  lemma EmptyAdminWalletRecordedAsAdmin(ts: seq<CryptoTransfer>, ps: seq<Payment>, t: Transfer,
                                        key: Option<string>, chain: Chain)
    requires Unpaid(ts, t)
    ensures var r := TransferCrypto(ts, ps, t, Config(Some(""), key), chain);
      && r.result == NotPaid(AdminConfigMissing)
      && r.transfers[|ts|].fromWalletAddress == "admin"
  {
  }

  /** Worked example: 12.5 USDT on BSC is sent as 12 500 000 units to the
      BSC USDT contract, with the fallback gas limit when estimation
      fails. */
  lemma UsdtOnBscExample()
    ensures BuildTx(Transfer("u1", "p1", "12.5", "USDT", "0xabc", "BSC"), "0xadmin", Chain(true, None, Some("0xh")))
         == Built(TokenTx("0xadmin", "0x55d398326f99059fF775485246999027B3197955", "0xabc", 12500000, 65000))
  {
    StablecoinScaling();
    assert "USDT" !in NativeCurrencies;
  }
}

=== FILE: preauth.dfy ===
/** `preAuthorizePayment`: reserve funds at the gateway and record a
    pending payment. The gateway exchange is an input: either the decoded
    reply or the fact that the request failed. */
module PreAuth {
  import opened Common
  import opened Records
  import opened Store

  datatype Card = Card(
    number: Option<string>,
    holder: Option<string>,
    expiryMonth: Option<string>,
    expiryYear: Option<string>,
    cvv: Option<string>)

  /** The authenticated user id and the JSON body. `paymentType` is what
      the client asked for; it is never used. */
  datatype Request = Request(
    userId: Option<string>,
    amount: Option<string>,
    currency: Option<string>,
    paymentBrand: Option<string>,
    paymentType: Option<string>,
    card: Option<Card>)

  /** The form posted to the gateway's payments endpoint. */
  datatype GatewayCall = GatewayCall(
    amount: string, currency: string, paymentBrand: string, paymentType: string, card: Card)

  /** The gateway's answer: HTTP status, `id` and masked `card`, or a
      transport / parse failure. */
  datatype GatewayReply =
    | Replied(httpStatus: nat, id: Option<string>, card: Option<string>)
    | RequestFailed

  datatype Reply =
    | Unauthenticated
    | MissingFields
    | MissingCardDetails
    | Relayed(httpStatus: nat)
    | ServerError
  {
    function Code(): nat {
      match this
      case Unauthenticated => 401
      case MissingFields => 400
      case MissingCardDetails => 400
      case Relayed(s) => if s == 0 then 200 else s
      case ServerError => 500
    }
  }

  datatype Outcome = Outcome(payments: seq<Payment>, reply: Reply, sent: Option<GatewayCall>)

  /** The operation code meaning "reserve, do not capture". */
  const PreAuthorisation := "PA"

  predicate CardComplete(card: Option<Card>) {
    card.Some? &&
    Present(card.value.number) && Present(card.value.holder) &&
    Present(card.value.expiryMonth) && Present(card.value.expiryYear) &&
    Present(card.value.cvv)
  }

  /** The request passes every check made before the gateway is called. */
  predicate Acceptable(req: Request) {
    Present(req.userId) && Present(req.amount) && Present(req.currency) &&
    Present(req.paymentBrand) && CardComplete(req.card)
  }

  /** The row `Payment.create` stores after the gateway replied. */
  predicate IsPreAuthRecord(p: Payment, req: Request, newId: string, gatewayId: Option<string>, card: Option<string>)
    requires Acceptable(req)
  {
    && p.id == newId
    && p.userId == req.userId.value
    && p.amount == req.amount.value
    && p.currency == req.currency.value
    && p.paymentBrand == req.paymentBrand.value
    && p.paymentType == PreAuthorisation
    && p.card == OrNull(card)
    && p.referenceId == OrNull(gatewayId)
    && p.paymentId == OrNull(gatewayId)
    && p.status == Pending
    && p.cryptoAmount.None? && p.cryptoCurrency.None? && p.walletAddress.None? && p.network.None?
    && p.transferStatus == TransferPending
  }

  /** `newId` is the UUID the database assigns to the new row. */
  function PreAuthorize(payments: seq<Payment>, req: Request, newId: string, gateway: GatewayReply): (r: Outcome)
    ensures r.sent.Some? <==> Acceptable(req)
    ensures r.sent.Some? ==> r.sent.value.paymentType == PreAuthorisation
    ensures r.sent.Some? ==>
      r.sent.value == GatewayCall(req.amount.value, req.currency.value, req.paymentBrand.value,
                                  PreAuthorisation, req.card.value)
    ensures !Present(req.userId) ==> r.reply.Code() == 401
    ensures Present(req.userId) && !Acceptable(req) ==> r.reply.Code() == 400
    ensures r.sent.None? || gateway.RequestFailed? ==> r.payments == payments
    ensures gateway.RequestFailed? && Acceptable(req) ==> r.reply.Code() == 500
    ensures Acceptable(req) && gateway.Replied? ==>
      && |r.payments| == |payments| + 1
      && r.payments[..|payments|] == payments
      && IsPreAuthRecord(r.payments[|payments|], req, newId, gateway.id, gateway.card)
      && r.reply == Relayed(gateway.httpStatus)
  {
    if !Present(req.userId) then Outcome(payments, Unauthenticated, None)
    else if !Present(req.amount) || !Present(req.currency) || !Present(req.paymentBrand) then
      Outcome(payments, MissingFields, None)
    else if !CardComplete(req.card) then Outcome(payments, MissingCardDetails, None)
    else
      var call := GatewayCall(req.amount.value, req.currency.value, req.paymentBrand.value,
                              PreAuthorisation, req.card.value);
      match gateway
      case RequestFailed => Outcome(payments, ServerError, Some(call))
      case Replied(status, id, card) =>
        var row := Payment(newId, req.userId.value, req.currency.value, req.amount.value,
                           req.paymentBrand.value, PreAuthorisation, OrNull(card),
                           OrNull(id), OrNull(id), Pending,
                           None, None, None, None, TransferPending);
        Outcome(payments + [row], Relayed(status), Some(call))
  }

  /** Whatever operation the client names, the handler behaves the same. */
  lemma ClientPaymentTypeIgnored(payments: seq<Payment>, req: Request, t: Option<string>,
                                 newId: string, gateway: GatewayReply)
    ensures PreAuthorize(payments, req.(paymentType := t), newId, gateway)
         == PreAuthorize(payments, req, newId, gateway)
  {
  }

  /** A successful pre-authorisation creates the row under a fresh id, so
      internal ids stay unique. */
  lemma PreAuthKeepsIdsUnique(payments: seq<Payment>, req: Request, newId: string, gateway: GatewayReply)
    requires UniqueIds(payments)
    requires forall i :: 0 <= i < |payments| ==> payments[i].id != newId
    ensures UniqueIds(PreAuthorize(payments, req, newId, gateway).payments)
  {
  }
}

=== FILE: records.dfy ===
/** Row shapes of the four tables the core reads and writes. `Option`
    marks a nullable column; every other field is NOT NULL. Internal
    surrogate ids of CryptoTransfers and user_kyc rows, timestamps, and
    columns no core handler reads (`isDelete`, `otp`, `fromWalletAddress`
    on Payments) are not represented. */
module Records {
  import opened Common

  /** Values the controllers write to `Payments.status` (a free-text
      column whose default is `pending`). */
  datatype PaymentStatus =
    | Pending | Authorized | Success | Failed | FailedCapture | ErrorCapture
    | Refunded | Chargeback | ChargebackReversed

  /** `pending | success | failed`: both `Payments.transferStatus` and
      `CryptoTransfers.status` use these three words, default `pending`. */
  datatype TransferState = TransferPending | TransferSuccess | TransferFailed

  /** One row of `Payments`. The ORM model declares the fields up to
      `status`; the crypto payout fields below it exist only as columns
      added by the migration that extends Payments (`transferStatus` NOT
      NULL, default `pending`), yet the webhook handler and the payout
      routine read and write them, so they are part of the row here. As
      written, a lookup through the ORM model selects only the declared
      attributes, so those reads would see `undefined`. The model
      describes the program with the migration's columns loaded. */
  datatype Payment = Payment(
    id: string,                       // internal UUID primary key
    userId: string,
    currency: string,
    amount: string,                   // decimal text, never a number
    paymentBrand: string,
    paymentType: string,
    card: Option<string>,             // gateway's card snapshot (JSON)
    paymentId: Option<string>,        // id of the latest gateway operation
    referenceId: Option<string>,      // id returned by the pre-authorisation
    status: PaymentStatus,
    cryptoAmount: Option<string>,
    cryptoCurrency: Option<string>,
    walletAddress: Option<string>,
    network: Option<string>,
    transferStatus: TransferState)

  /** One row of `CryptoTransfers`: one payout attempt. `paymentId` holds
      the internal `Payments.id`, not a gateway id; `txHash` is the only
      nullable transfer detail. */
  datatype CryptoTransfer = CryptoTransfer(
    userId: Option<string>,
    paymentId: Option<string>,
    cryptoAmount: string,
    cryptoCurrency: string,
    walletAddress: string,
    fromWalletAddress: string,
    network: string,
    txHash: Option<string>,
    isProcessed: bool,
    status: TransferState)

  /** Values of the `Users.kycStatus` enumeration (default NOT_STARTED). */
  datatype KycStatus = NotStarted | KycPending | Approved | Rejected

  /** The `Users` columns that login, e-mail confirmation, 2FA and KYC
      touch. `emailVerify` and `twoFaStatus` are TINYINT flags; the
      handlers only ever compare them with 1, so a NULL behaves as 0. The
      ORM model declares the fields up to `emailToken`; `kycStatus` (NOT
      NULL, default NOT_STARTED) and `kycLevel` exist only as columns
      added by the migration that adds KYC fields to Users, yet the KYC
      handlers write them, so they are part of the row here. As with
      `Payment`, the model describes the program with the migration's
      columns loaded. */
  datatype User = User(
    id: string,
    firstName: string,
    lastName: string,
    email: string,                    // unique
    password: string,                 // bcrypt hash
    emailVerify: int,
    twoFaSecret: Option<string>,
    twoFaStatus: int,
    emailToken: Option<string>,
    kycStatus: KycStatus,
    kycLevel: Option<string>)

  /** Values written to `user_kyc.reviewStatus` (default `pending`). */
  datatype ReviewStatus = Initiated | ReviewPending | Completed

  /** One row of `user_kyc`. `applicantId` is unique; `userId`,
      `reviewAnswer`, `rejectReason` and `rawWebhook` are nullable. */
  datatype UserKyc = UserKyc(
    userId: Option<string>,
    applicantId: Option<string>,
    reviewStatus: ReviewStatus,
    reviewAnswer: Option<string>,
    rejectReason: Option<string>,
    rawWebhook: Option<string>)

  /** A user row as `User.create` fills it at registration: every column
      the caller does not pass takes its declared default. */
  function NewUser(id: string, firstName: string, lastName: string, email: string,
                   passwordHash: string, emailToken: Option<string>): User
  {
    User(id, firstName, lastName, email, passwordHash,
         0, None, 0, emailToken, NotStarted, None)
  }
}

=== FILE: result_codes.dfy ===
/** The two ways the payment controller reads a gateway result code.
    The synchronous endpoints (status query, capture, back-office) accept
    any code that starts with `000`; the webhook handler uses the regular
    expression `^(000\.000\.|000\.100\.1|000\.[36])` for both the
    notification code and the capture code. The two are deliberately kept
    apart: the webhook test is strictly narrower. */
module ResultCodes {
  import opened Common

  /** `resultCode.startsWith('000')`. */
  predicate SyncSuccess(code: string) {
    StartsWith(code, "000")
  }

  /** The webhook regular expression, one alternative per disjunct; the
      character class `[36]` is the last character test. */
  predicate WebhookSuccess(code: string) {
    || StartsWith(code, "000.000.")
    || StartsWith(code, "000.100.1")
    || (StartsWith(code, "000.") && |code| > 4 && (code[4] == '3' || code[4] == '6'))
  }

  /** The regular expression with its character class expanded: a code is
      a webhook success iff it begins with one of four literal prefixes. */
  const WebhookPrefixes: seq<string> := ["000.000.", "000.100.1", "000.3", "000.6"]

  predicate StartsWithAny(code: string, prefixes: seq<string>) {
    exists i :: 0 <= i < |prefixes| && StartsWith(code, prefixes[i])
  }

  lemma WebhookSuccessByPrefixes(code: string)
    ensures WebhookSuccess(code) <==> StartsWithAny(code, WebhookPrefixes)
  {
    if StartsWith(code, "000.") && |code| > 4 && code[4] == '3' {
      assert code[..5] == code[..4] + [code[4]];
      assert StartsWith(code, WebhookPrefixes[2]);
    }
    if StartsWith(code, "000.") && |code| > 4 && code[4] == '6' {
      assert code[..5] == code[..4] + [code[4]];
      assert StartsWith(code, WebhookPrefixes[3]);
    }
    if StartsWithAny(code, WebhookPrefixes) {
      var i :| 0 <= i < |WebhookPrefixes| && StartsWith(code, WebhookPrefixes[i]);
      if i >= 2 {
        assert code[..4] == code[..5][..4];
      }
    }
    if StartsWith(code, "000.000.") {
      assert StartsWith(code, WebhookPrefixes[0]);
    }
    if StartsWith(code, "000.100.1") {
      assert StartsWith(code, WebhookPrefixes[1]);
    }
  }

  /** Every webhook success is also a synchronous success. */
  lemma WebhookSuccessIsSyncSuccess(code: string)
    ensures WebhookSuccess(code) ==> SyncSuccess(code)
  {
    if StartsWith(code, "000.000.") {
      assert code[..3] == code[..8][..3];
    } else if StartsWith(code, "000.100.1") {
      assert code[..3] == code[..9][..3];
    } else if StartsWith(code, "000.") {
      assert code[..3] == code[..4][..3];
    }
  }

  /** The converse fails: `000.200.100` passes the synchronous test and
      fails the webhook test. */
  lemma SyncSuccessIsBroader()
    ensures SyncSuccess("000.200.100") && !WebhookSuccess("000.200.100")
  {
    assert "000.200.100"[..3] == "000";
    assert "000.200.100"[..8][4] != "000.000."[4];
    assert "000.200.100"[..9][4] != "000.100.1"[4];
  }

  /** Worked classifications of the webhook matcher. */
  lemma WebhookExamples()
    ensures WebhookSuccess("000.000.000")
    ensures WebhookSuccess("000.100.110")
    ensures WebhookSuccess("000.600.200")
    ensures !WebhookSuccess("800.100.100")
    ensures !WebhookSuccess("700.400.100")
  {
    assert "000.000.000"[..8] == "000.000.";
    assert "000.100.110"[..9] == "000.100.1";
    assert "000.600.200"[..4] == "000.";
    assert "800.100.100"[..4] != "000." && "800.100.100"[..8] != "000.000." && "800.100.100"[..9] != "000.100.1";
    assert "700.400.100"[..4] != "000." && "700.400.100"[..8] != "000.000." && "700.400.100"[..9] != "000.100.1";
  }

  /** The human-readable diagnostic attached to a failed synchronous
      capture. */
  datatype Diagnostic = PreAuthUnusable | GatewayRejected | AsDescribed

  function CaptureDiagnostic(code: string): Diagnostic {
    if code == "700.400.100" then PreAuthUnusable
    else if StartsWith(code, "700") then GatewayRejected
    else AsDescribed
  }
}

=== FILE: store.dfy ===
/** Table lookups and writes shared by the handlers. A table is a sequence
    of rows in storage order; `findOne` returns the first row that
    matches. */
module Store {
  import opened Common
  import opened Records

  /** `Payment.findOne({ where: { referenceId: id } })`. */
  function FindByReferenceId(ps: seq<Payment>, id: string): Option<nat> {
    FirstIndex(ps, (p: Payment) => p.referenceId == Some(id))
  }

  /** `Payment.findOne({ where: { paymentId: id } })`. */
  function FindByPaymentId(ps: seq<Payment>, id: string): Option<nat> {
    FirstIndex(ps, (p: Payment) => p.paymentId == Some(id))
  }

  /** A payment is looked up by `referenceId` first and by `paymentId`
      only when no row carries the id as its `referenceId`. */
  function Resolve(ps: seq<Payment>, id: string): (r: Option<nat>)
    ensures r.Some? ==> r.value < |ps|
    ensures r.Some? ==> ps[r.value].referenceId == Some(id) || ps[r.value].paymentId == Some(id)
    ensures r.None? <==>
      forall i :: 0 <= i < |ps| ==> ps[i].referenceId != Some(id) && ps[i].paymentId != Some(id)
    ensures (exists i :: 0 <= i < |ps| && ps[i].referenceId == Some(id)) ==>
      r.Some? && ps[r.value].referenceId == Some(id) &&
      forall j :: 0 <= j < r.value ==> ps[j].referenceId != Some(id)
    ensures (forall i :: 0 <= i < |ps| ==> ps[i].referenceId != Some(id)) && r.Some? ==>
      ps[r.value].paymentId == Some(id) &&
      forall j :: 0 <= j < r.value ==> ps[j].paymentId != Some(id)
  {
    match FindByReferenceId(ps, id)
    case Some(i) => Some(i)
    case None => FindByPaymentId(ps, id)
  }

  /** Instance `update`: the row at `i` is replaced, every other row kept. */
  function SetAt(ps: seq<Payment>, i: nat, p: Payment): (r: seq<Payment>)
    requires i < |ps|
    ensures |r| == |ps| && r[i] == p
    ensures forall j :: 0 <= j < |ps| && j != i ==> r[j] == ps[j]
  {
    ps[i := p]
  }

  /** `Payment.update({ transferStatus: s }, { where: { id } })`. */
  function SetTransferStatus(ps: seq<Payment>, id: string, s: TransferState): (r: seq<Payment>)
    ensures |r| == |ps|
    ensures forall j :: 0 <= j < |ps| ==>
      r[j] == if ps[j].id == id then ps[j].(transferStatus := s) else ps[j]
  {
    UpdateWhere(ps, (p: Payment) => p.id == id, (p: Payment) => p.(transferStatus := s))
  }

  /** Internal payment ids are primary keys. */
  predicate UniqueIds(ps: seq<Payment>) {
    forall i, j :: 0 <= i < j < |ps| ==> ps[i].id != ps[j].id
  }

  /** `User.findByPk(id)`. */
  function FindUser(us: seq<User>, id: string): Option<nat> {
    FirstIndex(us, (u: User) => u.id == id)
  }

  /** `User.update(values, { where: { id } })` applied as `f`. */
  function UpdateUser(us: seq<User>, id: string, f: User -> User): (r: seq<User>)
    ensures |r| == |us|
    ensures forall j :: 0 <= j < |us| ==> r[j] == if us[j].id == id then f(us[j]) else us[j]
  {
    UpdateWhere(us, (u: User) => u.id == id, f)
  }

  /** User ids are primary keys. */
  predicate UniqueUserIds(us: seq<User>) {
    forall i, j :: 0 <= i < j < |us| ==> us[i].id != us[j].id
  }
}

=== FILE: webhook.dfy ===
/** `handleSetopayWebhook`: the gateway's asynchronous notification. A
    notification whose code matches the webhook success pattern makes the
    handler capture the payment itself and, once captured, pay out the
    crypto side. Every outcome except a missing id is acknowledged with
    200 so that the gateway stops retrying. */
module PaymentWebhook {
  import opened Common
  import opened ResultCodes
  import opened Records
  import opened Store
  import Payout

  /** The notification's `id` and `result.code`. */
  datatype Notification = Notification(id: Option<string>, resultCode: Option<string>)

  /** The capture call's decoded reply, or a transport failure. */
  datatype CaptureReply =
    | Replied(code: Option<string>, id: Option<string>)
    | RequestFailed

  datatype Ack =
    | MissingPaymentId
    | NotFound
    | AlreadyProcessed
    | Processed
  {
    function Code(): nat {
      if this == MissingPaymentId then 400 else 200
    }
  }

  /** The capture posted to the gateway: the notification's id, and the
      amount and currency of the local record. */
  datatype CaptureCall = CaptureCall(id: string, amount: string, currency: string)

  datatype Outcome = Outcome(
    payments: seq<Payment>,
    transfers: seq<CryptoTransfer>,
    ack: Ack,
    captured: Option<CaptureCall>,
    payout: Option<Payout.Transfer>)

  /** The payout the payment row asks for, when it names wallet, currency
      and network; the amount falls back to the fiat amount. */
  function PayoutRequest(p: Payment): Option<Payout.Transfer> {
    if Present(p.walletAddress) && Present(p.cryptoCurrency) && Present(p.network) then
      Some(Payout.Transfer(p.userId, p.id, OrElse(p.cryptoAmount, Some(p.amount)).GetOr(""),
                           p.cryptoCurrency.value, p.walletAddress.value, p.network.value))
    else None
  }

  /** The `paymentId` after `payment.update({ paymentId: captureResponse.id })`:
      the ORM drops a field whose value is undefined, so a reply without
      an id leaves the column as it was. */
  function KeptUnlessGiven(current: Option<string>, given: Option<string>): (r: Option<string>)
    ensures given.Some? ==> r == given
    ensures given.None? ==> r == current
  {
    if given.Some? then given else current
  }

  /** A notification the handler acts on: it has an id, a matching record
      that is not both captured and paid out, and a success code. */
  predicate Actionable(payments: seq<Payment>, n: Notification) {
    && Present(n.id)
    && Resolve(payments, n.id.value).Some?
    && var p := payments[Resolve(payments, n.id.value).value];
    && !(p.status == Success && p.transferStatus == TransferSuccess)
    && Present(n.resultCode) && WebhookSuccess(n.resultCode.value)
  }

  function HandleWebhook(payments: seq<Payment>, transfers: seq<CryptoTransfer>, n: Notification,
                         reply: CaptureReply, config: Payout.Config, chain: Payout.Chain): (r: Outcome)
    ensures r.ack.Code() == 400 <==> !Present(n.id)
    ensures r.captured.Some? <==> Actionable(payments, n)
    ensures !Actionable(payments, n) ==>
      r.payments == payments && r.transfers == transfers && r.payout.None?
    ensures r.captured.Some? ==>
      var p := payments[Resolve(payments, n.id.value).value];
      r.captured.value == CaptureCall(n.id.value, p.amount, p.currency)
    ensures r.payout.Some? ==>
      && r.captured.Some? && reply.Replied? && WebhookSuccess(reply.code.GetOr(""))
      && r.payout == PayoutRequest(payments[Resolve(payments, n.id.value).value])
    ensures r.payout.None? ==> r.transfers == transfers
    ensures |r.payments| == |payments|
    // A successful capture is followed by the payout the captured row
    // asks for, and the tables are what that payout leaves behind.
    ensures Actionable(payments, n) && reply.Replied? && WebhookSuccess(reply.code.GetOr("")) ==>
      var i := Resolve(payments, n.id.value).value;
      var captured := payments[i].(status := Success,
                                   paymentId := KeptUnlessGiven(payments[i].paymentId, reply.id));
      && r.payout == PayoutRequest(captured)
      && (r.payout.None? ==> r.payments == payments[i := captured] && r.transfers == transfers)
      && (r.payout.Some? ==>
            var paid := Payout.TransferCrypto(transfers, payments[i := captured], r.payout.value, config, chain);
            r.payments == paid.payments && r.transfers == paid.transfers)
  {
    if !Present(n.id) then Outcome(payments, transfers, MissingPaymentId, None, None)
    else
      var id := n.id.value;
      match Resolve(payments, id)
      case None => Outcome(payments, transfers, NotFound, None, None)
      case Some(i) =>
        var p := payments[i];
        if p.status == Success && p.transferStatus == TransferSuccess then
          Outcome(payments, transfers, AlreadyProcessed, None, None)
        else if !(Present(n.resultCode) && WebhookSuccess(n.resultCode.value)) then
          Outcome(payments, transfers, Processed, None, None)
        else
          var p1 := if p.status != Success then p.(status := Authorized) else p;
          var call := CaptureCall(id, p.amount, p.currency);
          match reply
          case RequestFailed =>
            Outcome(SetAt(payments, i, p1.(status := ErrorCapture)), transfers, Processed, Some(call), None)
          case Replied(code, captureId) =>
            if !WebhookSuccess(code.GetOr("")) then
              var p2 := p1.(status := FailedCapture, paymentId := KeptUnlessGiven(p1.paymentId, captureId));
              Outcome(SetAt(payments, i, p2), transfers, Processed, Some(call), None)
            else
              var p2 := p1.(status := Success, paymentId := KeptUnlessGiven(p1.paymentId, captureId));
              var payments1 := SetAt(payments, i, p2);
              match PayoutRequest(p2)
              case None => Outcome(payments1, transfers, Processed, Some(call), None)
              case Some(t) =>
                var paid := Payout.TransferCrypto(transfers, payments1, t, config, chain);
                Outcome(paid.payments, paid.transfers, Processed, Some(call), Some(t))
  }

  /** The record a notification reaches changes as the capture reply says:
      `success` with the capture's id on a success code, `failed_capture`
      with the capture's id otherwise, `error_capture` when the capture
      request fails. A reply without an id keeps the stored `paymentId`. Without a payout no other row changes; a payout
      changes nothing else but `transferStatus` columns. */
  lemma CaptureOutcome(payments: seq<Payment>, transfers: seq<CryptoTransfer>, n: Notification,
                       reply: CaptureReply, config: Payout.Config, chain: Payout.Chain)
    requires Actionable(payments, n)
    ensures var i := Resolve(payments, n.id.value).value;
      var r := HandleWebhook(payments, transfers, n, reply, config, chain);
      && r.ack == Processed
      && (reply.RequestFailed? ==> r.payments == payments[i := payments[i].(status := ErrorCapture)])
      && (reply.Replied? && reply.id.None? ==> r.payments[i].paymentId == payments[i].paymentId)
      && (reply.Replied? && !WebhookSuccess(reply.code.GetOr("")) ==>
            r.payments == payments[i := payments[i].(status := FailedCapture,
                                                     paymentId := KeptUnlessGiven(payments[i].paymentId, reply.id))])
      && (reply.Replied? && WebhookSuccess(reply.code.GetOr("")) && r.payout.None? ==>
            r.payments == payments[i := payments[i].(status := Success,
                                                     paymentId := KeptUnlessGiven(payments[i].paymentId, reply.id))])
      && (reply.Replied? && WebhookSuccess(reply.code.GetOr("")) ==>
            && r.payments[i] == payments[i].(status := Success,
                                             paymentId := KeptUnlessGiven(payments[i].paymentId, reply.id),
                                             transferStatus := r.payments[i].transferStatus)
            && forall j :: 0 <= j < |payments| && j != i ==>
                 r.payments[j] == payments[j].(transferStatus := r.payments[j].transferStatus))
  {
  }

  /** A captured payment whose payout has not succeeded is captured again
      on the next success notification: the duplicate guard needs both the
      capture and the payout to be done. */
  lemma RecaptureWhilePayoutPending(payments: seq<Payment>, transfers: seq<CryptoTransfer>, n: Notification,
                                    reply: CaptureReply, config: Payout.Config, chain: Payout.Chain)
    requires Present(n.id) && Present(n.resultCode) && WebhookSuccess(n.resultCode.value)
    requires Resolve(payments, n.id.value).Some?
    requires var p := payments[Resolve(payments, n.id.value).value];
      p.status == Success && p.transferStatus != TransferSuccess
    ensures HandleWebhook(payments, transfers, n, reply, config, chain).captured.Some?
  {
  }

  /** The same re-capture can undo a capture: if the gateway refuses to
      capture a payment again, the record that was `success` becomes
      `failed_capture`. */
  lemma RecaptureRefusalDowngrades(payments: seq<Payment>, transfers: seq<CryptoTransfer>, n: Notification,
                                   code: Option<string>, captureId: Option<string>,
                                   config: Payout.Config, chain: Payout.Chain)
    requires Present(n.id) && Present(n.resultCode) && WebhookSuccess(n.resultCode.value)
    requires Resolve(payments, n.id.value).Some?
    requires var p := payments[Resolve(payments, n.id.value).value];
      p.status == Success && p.transferStatus != TransferSuccess
    requires !WebhookSuccess(code.GetOr(""))
    ensures var i := Resolve(payments, n.id.value).value;
      HandleWebhook(payments, transfers, n, Replied(code, captureId), config, chain).payments[i].status
        == FailedCapture
  {
  }

  /** Once a notification has left its record captured with the payout
      done, the same notification again is acknowledged as already
      processed and changes nothing. The record is the one that carries
      the notification id as its pre-authorisation `referenceId`. */
  lemma {:induction false} FullyProcessedIsFinal(payments: seq<Payment>, transfers: seq<CryptoTransfer>,
                                                  n: Notification, reply: CaptureReply,
                                                  config: Payout.Config, chain: Payout.Chain,
                                                  reply': CaptureReply, chain': Payout.Chain)
    requires Actionable(payments, n)
    requires payments[Resolve(payments, n.id.value).value].referenceId == n.id
    requires reply.Replied? && WebhookSuccess(reply.code.GetOr(""))
    requires HandleWebhook(payments, transfers, n, reply, config, chain)
               .payments[Resolve(payments, n.id.value).value].transferStatus == TransferSuccess
    ensures var r := HandleWebhook(payments, transfers, n, reply, config, chain);
      var r' := HandleWebhook(r.payments, r.transfers, n, reply', config, chain');
      r'.ack == AlreadyProcessed && r'.payments == r.payments && r'.transfers == r.transfers &&
      r'.captured.None?
  {
    var i := Resolve(payments, n.id.value).value;
    var r := HandleWebhook(payments, transfers, n, reply, config, chain);
    CapturedKeepsKeys(payments, transfers, n, reply, config, chain);
    RowStillResolved(payments, r.payments, i, n.id.value);
  }

  /** A successful capture leaves its record `success` and no row's
      `referenceId` changed, whatever the payout does. */
  lemma CapturedKeepsKeys(payments: seq<Payment>, transfers: seq<CryptoTransfer>, n: Notification,
                          reply: CaptureReply, config: Payout.Config, chain: Payout.Chain)
    requires Actionable(payments, n)
    requires reply.Replied? && WebhookSuccess(reply.code.GetOr(""))
    ensures var r := HandleWebhook(payments, transfers, n, reply, config, chain);
      && r.payments[Resolve(payments, n.id.value).value].status == Success
      && forall j :: 0 <= j < |payments| ==> r.payments[j].referenceId == payments[j].referenceId
  {
    var i := Resolve(payments, n.id.value).value;
    var p2 := payments[i].(status := Success,
                           paymentId := KeptUnlessGiven(payments[i].paymentId, reply.id));
    var payments1 := SetAt(payments, i, p2);
    var r := HandleWebhook(payments, transfers, n, reply, config, chain);
    assert forall j :: 0 <= j < |payments| ==>
      payments1[j].referenceId == payments[j].referenceId;
    match PayoutRequest(p2)
    case None =>
      assert r.payments == payments1;
    case Some(t) =>
      assert r.payments == Payout.TransferCrypto(transfers, payments1, t, config, chain).payments;
  }

  /** Rewrites that keep every `referenceId` leave a row found through its
      `referenceId` found. */
  lemma RowStillResolved(before: seq<Payment>, after: seq<Payment>, i: nat, id: string)
    requires i < |before| == |after|
    requires Resolve(before, id) == Some(i)
    requires before[i].referenceId == Some(id)
    requires forall j :: 0 <= j < |before| ==> after[j].referenceId == before[j].referenceId
    ensures Resolve(after, id) == Some(i)
  {
    assert forall j :: 0 <= j < i ==> after[j].referenceId != Some(id);
    assert FindByReferenceId(after, id) == Some(i);
  }
}
